=== FILE: README.md ===
# suto e-shop API, modelled in Dafny

This project models the back end of a small shop: a Go HTTP API over Google
Firestore and Cloud Storage. It covers the following parts:

- **Firestore-backed services.** Products, categories, advertisements,
  banners, coupons and orders. Each service has create/list/get/update/delete
  operations, a page window that every list cuts out of its filtered result,
  and the store-side name range used for search.
- **Order flows.** Creation computes the order's total. The partial update
  derives `paid_at` / `picked_at` / `disabled_at` stamps from flag changes,
  judged against the stored order. The order handlers validate payloads
  before calling the service.
- **In-memory product service.** A map plus an id counter.
- **Image upload.** The storage service names, writes and publishes the
  object. The handler validates the multipart form first.
- **Auth middleware.** Admin routes require a Firebase ID token in
  `X-Auth-Token` as `Bearer <token>`.
- **`main.go`.** The CORS middleware and the configuration read from the
  environment.

Everything outside the process becomes a parameter:

- **Firestore.** A read is given as the result the store returned. A query is
  given as the documents it yielded, in iteration order, plus the failure
  that ended it. A write is the command the service issues, together with the
  store's reply.
- **Outside services.** Cloud Storage, Firebase Auth, the clock and the UUID
  generator are parameters too.
- **HTTP handlers.** The service a handler calls is a function parameter, so
  each reply is stated for every answer the service can give.
- **Go map iteration order.** Where it matters, the order is a parameter.

Modules, one per file:

- **`Wrappers`.** Option, Result and the error kinds.
- **`Text`.** Go's byte-wise string order, `TrimPrefix` and `Contains`.
- **`Decimal`.** `strconv.FormatInt` / `fmt.Sprintf("%d")` and their parse.
- **`Pagination`.** `pkg/pagination` and the shared page window.
- **`Search`.** The name-range filter and the order text filter.
- **`Store`.** The store as the services see it.
- **Firestore services.** `Products`, `Categories`, `Advertises`, `Banners`,
  `Coupons` and `Orders`.
- **`OrderHandler`.** The order handlers.
- **`ProductMemory`.** The in-memory product service.
- **`Upload`.** The storage service and its handler.
- **`Auth`.** The admin middleware.
- **`Server`.** The logic in `main.go`.
- **`Http`.** Reply shapes.

## Model

| member | source | states |
|---|---|---|
| Pagination.CeilDiv | pkg/pagination/pagination.go:25 | the page count is the least q with count <= q*size, i.e. the ceiling of count/size |
| Pagination.New | pkg/pagination/pagination.go:18-33 | a non-positive page becomes 1 and a non-positive size 10, others kept; totalCount is echoed; totalPages is the least number of pages of that size holding totalCount items (0 for an empty list) |
| Pagination.NewExamples | pkg/pagination/pagination.go:18-33 | 25 items of 10 give 3 pages; (0, 0) normalises to page 1 size 10; an out-of-range page is kept as given |
| Pagination.GetPaginationParams | pkg/pagination/pagination.go:36-48 | an unparsable or non-positive page is 1 and pageSize 10; both results are always at least 1 |
| Pagination.NewEchoesParams | pkg/pagination/pagination.go:18-48 | metadata built from normalised parameters reports exactly those parameters |
| Pagination.Window | product/firestore.go:59-71 | the slice panics exactly when start <= n and start < 0 or size < 0; otherwise the window holds items[start+i], is empty past the end and has min(size, n-start) items |
| Pagination.ListWindow | product/firestore.go:59-71 | the listing is the window together with the filtered count, or the panic |
| Pagination.NormalisedWindowNeverPanics | pkg/pagination/pagination.go:36-48 | parameters produced by GetPaginationParams never make the window panic |
| Pagination.WindowNonEmptyIff | order/firestore.go:57-69 | for page, size >= 1 the window is non-empty iff page <= the totalPages New reports |
| Pagination.PagesFromCover | order/firestore.go:57-69 | concatenating the windows from page p onwards gives the items from start(p) on |
| Pagination.PagesCoverAll | order/firestore.go:57-69 | walking pages 1, 2, ... yields every item exactly once, in order |
| Text.LessIrreflexive | product/product.go:58-61 | the id order used by the sort is a strict order: irreflexive |
| Text.LessTransitive | product/product.go:58-61 | the id order is transitive |
| Text.LessTotal | product/product.go:58-61 | any two distinct ids are ordered one way |
| Text.LessAsymmetric | product/product.go:58-61 | the id order is asymmetric |
| Text.PrefixIsLess | product/firestore.go:41 | a proper prefix sorts before its extensions, so `name >= search` holds for names starting with the search |
| Text.LessOnCommonPrefix | product/firestore.go:41 | order is decided after a common prefix |
| Text.TrimPrefix | auth/jwt.go:28 | with the prefix present the result is what follows it; without it the input comes back unchanged |
| Text.Contains | order/firestore.go:49 | strings.Contains holds iff the text occurs at some position |
| Text.ContainsShift | order/firestore.go:49 | when the text is not a prefix, it occurs in s iff it occurs in s without its first character |
| Decimal.NatToDecimal | order/firestore.go:146 | the decimal text of n is non-empty, digits only, and starts with '0' only for n = 0 |
| Decimal.FormatInt | order/firestore.go:146 | FormatInt(n, 10) is non-empty and starts with '-' exactly for negative n |
| Decimal.DigitsOfDecimal | order/firestore.go:146 | the formatted digits are all decimal digits with value n |
| Decimal.FormatParseNat | product/product.go:46 | every string that parses is the rendering of its value, so canonical strings are exactly the renderings |
| Decimal.ParseFormatNat | product/product.go:46 | formatting then parsing a counter gives the counter back |
| Decimal.ParseFormatInt | order/firestore.go:146 | formatting then parsing any unix time gives it back |
| Decimal.FormatIntInjective | order/firestore.go:146 | distinct times give distinct stamps |
| Decimal.CanonicalValueBound | product/product.go:46 | a canonical numeral of two or more digits is worth at least 10 |
| Decimal.LeadingDigitPositive | product/product.go:46 | a digit string whose first digit is not '0' is worth at least 1 |
| Search.InNameRangeIff | product/firestore.go:40-42 | a name lies in [search, search + U+F8FF] iff it starts with search and what follows sorts no higher than the one-character string U+F8FF |
| Search.NotPrefixOutsideRange | product/firestore.go:40-42 | a name that does not start with the search is outside the range |
| Search.RangeImpliesPrefix | product/firestore.go:40-42 | every name the range query returns starts with the search |
| Search.RangeAdmitsOrdinaryContinuations | product/firestore.go:40-42 | the search itself and names continuing with a character below U+F8FF are returned |
| Search.RangeMissesHighContinuations | product/firestore.go:40-42 | a name continuing with a character above U+F8FF is missed although it has the prefix |
| Search.RangeExamples | category/firestore.go:42-44 | concrete names inside and outside the range |
| Search.RangeMatchIsSubstringMatch | order/firestore.go:48-54 | a name the range filter keeps is also kept by the order text filter |
| Store.Records | product/firestore.go:44-57 | the listed records are the yielded documents' records, in iteration order |
| Store.Filter | product/firestore.go:40-42 | the kept elements are exactly the input elements the predicate accepts |
| Store.FilterKeepsAll | order/firestore.go:52-53 | with no search every document is kept, in order |
| Store.FilterAppend | order/firestore.go:48-54 | filtering distributes over concatenation, so it keeps iteration order |
| Store.ScanList | product/firestore.go:36-72 | an iteration failure is returned; otherwise every listed item is a kept record, the count is the number kept, and normalised parameters always succeed |
| Store.ScanListAll | order/firestore.go:57 | with an accept-all filter the count is the number of yielded documents |
| Store.FirstDecodeError | category/firestore.go:115-118 | the index of the first document whose decode failed, with all earlier ones clean |
| Store.ScanAll | advertise/firestore.go:101-119 | the kept records, or the iteration's failure |
| Store.RecordsOfFilter | category/firestore.go:105-118 | selecting documents by their decoded record and then decoding gives the same list, in the same order, as filtering the decoded records |
| Store.ScanAllChecked | category/firestore.go:103-122 | succeeds iff the iteration ended cleanly and no kept document failed to decode; then it is the kept records; otherwise the error is the decode error of the first kept document that failed, or else the iteration's failure |
| Store.ReadLenient | product/firestore.go:74-83 | a failed read is returned, a decoding error ignored |
| Store.ReadChecked | category/firestore.go:76-87 | succeeds iff the read and the decode both did, returning the first error otherwise |
| Store.ReadersAgreeOnCleanDocuments | category/firestore.go:76-87 | both readers agree on documents that decode cleanly |
| Store.SetDoc | product/firestore.go:85-93 | the write issued; the reply is ok iff the store accepted it |
| Store.DeleteDoc | product/firestore.go:95-102 | the delete issued and the store's error returned unchanged |
| Products.AdminCreateProduct | product/firestore.go:25-34 | the payload is written under the new id with only its id replaced, and returned as written |
| Products.AdminGetProducts | product/firestore.go:36-72 | iteration failure returned; otherwise the result is the page window (`ListWindow`) of the records that pass the name filter, in iteration order; listed products satisfy the filter; the count is the filtered count; a page past the end is empty |
| Products.AdminGetProductsEmptySearch | product/firestore.go:40 | an empty search counts every document |
| Products.AdminGetProductsPrefix | product/firestore.go:40-42 | with any search every listed product's name starts with it |
| Products.GetProduct | product/firestore.go:155-164 | succeeds iff the read did, with the decoded record; decoding errors are ignored |
| Products.AdminUpdateProduct | product/firestore.go:85-93 | the payload is written verbatim under the path id; the reply carries the path id |
| Products.UpdateStoredDiffersFromReply | product/firestore.go:85-93 | stored and returned records differ exactly when the payload's id is not the path id |
| Products.AdminDeleteProduct | product/firestore.go:95-102 | deletes that id and returns the store's error |
| Products.GetProducts | product/firestore.go:104-140 | the client list is the admin list: same filter, window and count |
| Products.ClientListShowsDisabled | product/firestore.go:104-140 | a disabled product is listed to clients |
| Products.GetProductsIds | product/firestore.go:142-153 | never fails; lists every found product of the ids and nothing else, in id order, skipping failed lookups |
| Categories.AdminCreateCategory | category/firestore.go:26-36 | written under the new id with that id, returned as written |
| Categories.AdminGetCategories | category/firestore.go:38-74 | iteration failure returned; otherwise the result is the page window (`ListWindow`) of the records that pass the name filter, in iteration order; count is the filtered count; a page past the end is empty |
| Categories.AdminGetCategory | category/firestore.go:76-87 | succeeds iff the read and decode succeed; a decode error is returned |
| Categories.AdminUpdateCategory | category/firestore.go:89-96 | the path id is set before writing; stored and returned record agree |
| Categories.AdminDeleteCategory | category/firestore.go:98-101 | deletes that id, store error returned |
| Categories.GetCategories | category/firestore.go:103-122 | success exactly when the iteration did not fail and every enabled document decoded; then exactly the enabled categories, each once, in iteration order; otherwise the first enabled document's decode error, or else the iteration's failure |
| Categories.EnabledScanSucceedsIff | category/firestore.go:105-118 | the enabled-only scan fails exactly on an iteration failure or a decoding failure of an enabled document |
| Advertises.AdminCreateAdvertise | advertise/firestore.go:25-35 | written under the new id with that id, returned as written |
| Advertises.AdminGetAdvertises | advertise/firestore.go:37-72 | iteration failure returned; otherwise the result is the page window (`ListWindow`) of the records that pass the name filter, in iteration order; count is the filtered count; a page past the end is empty |
| Advertises.AdminGetAdvertise | advertise/firestore.go:74-85 | succeeds iff the read and decode succeed |
| Advertises.AdminUpdateAdvertise | advertise/firestore.go:87-94 | the path id is set before writing; stored and returned record agree |
| Advertises.AdminDeleteAdvertise | advertise/firestore.go:96-99 | deletes that id, store error returned |
| Advertises.GetAdvertises | advertise/firestore.go:101-119 | fails iff the iteration failed; otherwise the enabled advertisements, each once, in iteration order, projected to the client record without the flag |
| Banners.AdminCreateBanner | banner/firestore.go:25-35 | written under the new id with that id, returned as written |
| Banners.AdminGetBanners | banner/firestore.go:37-72 | iteration failure returned; otherwise the result is the page window (`ListWindow`) of the records that pass the name filter, in iteration order; count is the filtered count; a page past the end is empty |
| Banners.AdminGetBanner | banner/firestore.go:74-85 | succeeds iff the read and decode succeed |
| Banners.AdminUpdateBanner | banner/firestore.go:87-94 | the path id is set before writing; stored and returned record agree |
| Banners.AdminDeleteBanner | banner/firestore.go:96-99 | deletes that id, store error returned |
| Banners.GetBanners | banner/firestore.go:101-119 | fails iff the iteration failed; otherwise the enabled banners, each once, in iteration order, projected to the client record without the flag |
| Coupons.CreateCoupon | coupon/firestore.go:25-34 | the payload is written under the new id with only its id replaced |
| Coupons.GetCoupons | coupon/firestore.go:36-72 | iteration failure returned; otherwise the result is the page window (`ListWindow`) of the records that pass the name filter, in iteration order; count is the filtered count; a page past the end is empty |
| Coupons.GetCoupon | coupon/firestore.go:74-83 | succeeds iff the read did; decoding errors ignored |
| Coupons.UpdateCoupon | coupon/firestore.go:85-93 | the payload is written verbatim; the reply carries the path id |
| Coupons.DeleteCoupon | coupon/firestore.go:95-102 | deletes that id, store error returned |
| Orders.Total | order/firestore.go:134-137 | the total of positive line items is at least the number of items; of non-negative ones, non-negative |
| Orders.TotalAppend | order/firestore.go:134-137 | the total is additive over concatenation, as the running sum is |
| Orders.TotalExample | order/firestore.go:134-137 | 2 x 50 + 1 x 30 = 130 |
| Orders.CreateOrder | order/firestore.go:131-155 | the order written under the new id is enabled, unpaid, unpicked, unstamped, with the request's fields, total = sum of price x count and a creation stamp that parses back to the clock; returned iff the store accepts it |
| Orders.UpdateWrites | order/firestore.go:84-111 | every payload pair is echoed; a stamp is added when its guard holds; every write is an echo or a guarded stamp |
| Orders.StampWrittenIff | order/firestore.go:89-110 | paid_at is written iff is_paid is boolean true and the stored order was unpaid; picked_at likewise; disabled_at iff is_enabled is boolean false |
| Orders.WritesDependOnlyOnPriorFlags | order/firestore.go:81-82 | the writes depend on the stored order only through its IsPaid and IsPicked |
| Orders.DisableAlwaysStamps | order/firestore.go:105-110 | disabling stamps disabled_at even for an already disabled order |
| Orders.NonBooleanFlagOnlyEchoed | order/firestore.go:89-95 | a non-boolean is_paid is written as given and derives nothing |
| Orders.UpdateOrder | order/firestore.go:72-129 | a failed first read issues nothing and is returned; otherwise the derived writes are issued; a write failure is returned; else the re-read's record or error |
| Orders.Applied | order/firestore.go:113-117 | for payloads that name no record field but the three flags, a field-by-field update leaves identity, items, total, name, mail and creation time unchanged |
| Orders.AppliedFollowsWrites | order/firestore.go:84-117 | each field the update changes is written, with the new value |
| Orders.RepeatedTrueUpdateAddsNoStamp | order/firestore.go:89-103 | repeating an update whose paid/picked flags, where present, are true derives no further stamp and keeps the first ones |
| Orders.FalseNeverClearsStamp | order/firestore.go:89-95 | unpaying keeps paid_at |
| Orders.PaidAtIsRestamped | order/firestore.go:89-95 | paid, unpaid, paid again stamps paid_at twice, the later time winning |
| Orders.GetOrders | order/firestore.go:28-70 | iteration failure returned; otherwise the result is the page window (`ListWindow`) of the orders kept by the search, in iteration order; a non-empty search keeps orders whose name or mail contains it; count is the filtered count; a page past the end is empty |
| Orders.GetOrdersEmptySearch | order/firestore.go:52-53 | an empty search counts every order |
| OrderHandler.FirstDisallowed | order/handler.go:71-76 | none iff every key is allowed; otherwise the first disallowed key in visiting order |
| OrderHandler.HandleUpdateOrder | order/handler.go:55-85 | 400 for an undecodable body or any key outside {is_enable, is_picked, is_paid}, naming such a key; the service is called iff all keys are allowed; any service error is 404 "Order not found"; otherwise 200 |
| OrderHandler.HandlerCannotDisable | order/handler.go:66-70 | no payload the handler forwards can stamp disabled_at or change is_enabled |
| OrderHandler.IsEnableWrittenVerbatim | order/handler.go:67 | the allowed key "is_enable" is written as a field of its own and derives nothing |
| OrderHandler.HandleUpdateOrderCorrected | order/handler.go:66-76 | with "is_enabled" in the allow-list, the service is called iff every key is one of the flags the service reads |
| OrderHandler.CorrectedHandlerCanDisable | order/firestore.go:105-110 | with the corrected list, {"is_enabled": false} reaches the service, stamps disabled_at and clears the flag |
| OrderHandler.ItemError | order/handler.go:139-149 | none iff the item has a name and positive count and price |
| OrderHandler.ItemsError | order/handler.go:139-149 | none iff every item is valid; otherwise the message of the first invalid item |
| OrderHandler.ValidateCreateOrderRequest | order/handler.go:129-151 | none iff the request is valid; the message names the first failed check in the order mail, name, products, items |
| OrderHandler.HandleCreateOrder | order/handler.go:87-106 | 400 for an undecodable or invalid body, without calling the service; the service is called iff the request is valid; 500 on its error, 201 with its order |
| OrderHandler.CreatedOrdersArePositive | order/handler.go:129-151 | an order created through the handler has total >= number of items >= 1 and starts enabled, unpaid, unpicked |
| OrderHandler.HandleSearchOrders | order/handler.go:108-127 | an empty search is 400 without a call; otherwise 500 on error, 200 with the service's orders |
| OrderHandler.HandleGetOrders | order/handler.go:35-53 | the service gets the normalised parameters (page 1 and size 10 for a missing, unparsable or non-positive value, otherwise the value given) and the search; 500 on error; 200 with the page and metadata that echo those parameters |
| OrderHandler.GetOrdersServedByStore | order/handler.go:35-53 | served by the store, the list is always 200 and its page is non-empty iff currentPage <= totalPages |
| ProductMemory.NewInMemoryService | product/product.go:38-43 | empty, counter 1, invariant holds |
| ProductMemory.IdOfParses | product/product.go:46 | the id made from a counter parses back to it |
| ProductMemory.CreateProduct | product/product.go:45-50 | the payload's id becomes the decimal counter, the counter grows by one, the product is stored under its id; from a valid state the id is fresh and the invariant kept |
| ProductMemory.GetProduct | product/product.go:79-85 | succeeds iff the id is stored, with that product |
| ProductMemory.UpdateProduct | product/product.go:87-94 | an absent id is an error and changes nothing; otherwise that entry becomes the payload with its id forced, all else unchanged |
| ProductMemory.DeleteProduct | product/product.go:96-102 | an absent id is an error and changes nothing; otherwise exactly that key is removed, the counter kept |
| ProductMemory.GetAfterCreate | product/product.go:45-50 | a created product can be read back, other reads unchanged |
| ProductMemory.GetAfterUpdate | product/product.go:87-94 | an update can be read back, other reads unchanged |
| ProductMemory.GetAfterDelete | product/product.go:96-102 | a deleted id is not found, other reads unchanged |
| ProductMemory.RunKeepsInvariant | product/product.go:45-102 | every sequence of create/update/delete keeps the invariant and never lowers the counter |
| ProductMemory.DeletedIdNeverReused | product/product.go:46-47 | a deleted id is never handed out again by a later create |
| ProductMemory.Collect | product/product.go:53-56 | the products in the order the map was visited |
| ProductMemory.Insert | product/product.go:59-61 | inserting into a sorted list gives a sorted permutation |
| ProductMemory.SortById | product/product.go:59-61 | the sorted list is a permutation of the input, ascending by id in string order |
| ProductMemory.EnumeratedKeysAreStored | product/product.go:54 | a map iteration visits only stored keys, as many as there are |
| ProductMemory.GetProducts | product/product.go:52-77 | panics exactly like the window; otherwise the count is the number stored, the page is sorted, holds only stored products, is exactly `min(pageSize, stored - start)` long before the end and empty past it, and is the window of the stored products sorted by id |
| ProductMemory.SortedCollectionsAgree | product/product.go:53-61 | when every product is stored under its own id, sorting the products collected in any two visiting orders of the same keys gives the same list |
| ProductMemory.ListingIgnoresVisitOrder | product/product.go:58-61 | any two map iteration orders give identical pages |
| ProductMemory.IdsSortAsStrings | product/product.go:59-61 | ids compare as strings: "10" sorts before "2" |
| Upload.IsValidImageType | upload/handler.go:77-86 | accepted iff the type is one of jpeg, png, gif, webp, svg+xml |
| Upload.FileExtension | upload/storage.go:92-107 | the explicit extension for the five image types, ".jpg" for every other type |
| Upload.AcceptedTypesHaveExplicitExtension | upload/storage.go:92-107 | the handler accepts a type iff the extension switch has a case for it, and the extension then determines the type |
| Upload.FallbackExamples | upload/storage.go:104-105 | unknown and empty types fall back to ".jpg" |
| Upload.Folder | upload/storage.go:35 | the part of an object path before the first '/' |
| Upload.FolderOfObjectPath | upload/storage.go:35 | the folder of `type/id.ext` is the upload type |
| Upload.UploadImage | upload/storage.go:27-74 | writes `type/id.ext` with the content type and bytes; each of write, close and ACL failure stops it with its own wrapped message; success returns the id, type and the URL of `type/id_200x200.ext` |
| Upload.UrlIsNotTheWrittenObject | upload/storage.go:65-67 | the returned URL differs from the written object's URL by the resize suffix |
| Upload.HandleUpload | upload/handler.go:26-74 | form parse, type, file and content type failures are 400 and an unreadable file 500, all without a call; the service is called iff all pass; 500 on its error, 201 with its result |
| Upload.AcceptedUploadsUseExplicitExtension | upload/handler.go:49-53 | whatever the handler forwards is stored with an explicit extension, never the fallback |
| Auth.Middleware | auth/jwt.go:12-54 | an empty header is 401; a header without the exact "Bearer " prefix is 401; a missing client is 500; the verifier gets the header minus one prefix; 401 if it refuses; forwarded iff it accepts; every rejection echoes the Origin |
| Auth.PrefixIsCaseSensitive | auth/jwt.go:28-32 | every header starting with a lower-case "bearer " is refused with the missing-bearer message before verification |
| Auth.BareAndDoublePrefix | auth/jwt.go:28 | "Bearer " sends the empty token to the verifier; only one prefix is removed |
| Server.IsAllowed | main.go:27-35 | true iff the list holds "*" or the request's origin |
| Server.CorsHeaders | main.go:37-43 | for an allowed origin, Allow-Origin is echoed and credentials set; the methods and headers lists are always set; other headers untouched |
| Server.CORSMiddleware | main.go:23-49 | always forwards; the credentials headers exactly for an allowed origin; the two lists always |
| Server.DeployedOriginsEchoOnly | main.go:93 | with the deployed list an origin is allowed iff listed, and the wildcard is never echoed |
| Server.LoadConfig | main.go:51-143 | project and database ids must be set, in that order; the bucket defaults to `<project>.appspot.com` and the port to 8080 |
| Server.EmptyIsUnset | main.go:53-143 | a variable set to "" behaves as an unset one |

## Left out

- **Firestore, Cloud Storage and Firebase Auth.**
  - Their clients are not modelled. Reads, query iterations, writes and
    their errors are parameters.
  - What a `Set`, `Update` or `Delete` does to stored data is not modelled.
    That covers upserts on update, and `Update` failing for a missing
    document.
  - The store-side range filter is modelled as a filter over the yielded
    documents, which assumes the store implements the range as a
    comparison of strings.
  - The store-side `Where("is_enabled", "==", true)` of the client lists
    (category/firestore.go:105, advertise/firestore.go:103,
    banner/firestore.go:103) is modelled as a filter on the decoded
    record. For a document that fails to decode, the decoded flag can
    differ from the stored one, so the model may keep or drop such a
    document differently from the store.
  - Result ordering is whatever the store yields.
- **Logging.** The `log.Printf` calls on error paths are not modelled, for
  example in category/firestore.go:32,53, order/firestore.go:78,115,122,
  product/firestore.go:147 (a skipped id in `GetProductsIds`) and
  upload/storage.go:49,55,61. They do not change any returned value.
- **Zero values on error.** Go returns a zero record beside every error. The
  model returns only the error.
- **Floating point.** `totalPages` uses `math.Ceil` on `float64`. The model
  uses the exact integer ceiling, so it ignores rounding for counts above
  2^53.
- **`strconv.Atoi`.** Its grammar is not modelled. `GetPaginationParams`
  receives an Option of the parsed value.
- **Integer width.** Overflow of Go `int` is not modelled:
  - in the order total;
  - in the in-memory id counter;
  - in `(page-1)*pageSize`.

  The `int32` product prices and `int64` coupon times are range-restricted
  newtypes. No arithmetic is done on them.
- **JSON encoding and decoding.** Not modelled, nor is `RespondWithJSON`. A
  body that fails to decode is `None`.
  - `null` decodes to a nil map in Go. The model treats it as an empty
    payload that passes the allow-list.
  - The response envelopes `Message` and `Code` are not modelled.
- **Clock reads in one update.** All stamps derived in one order update use
  a single clock reading (`now`). Go reads the clock once per stamp, and
  two readings can differ by a second.
- **Go map iteration order.** It is random. It appears as a parameter:
  - `order` in `HandleUpdateOrder`, where it decides which disallowed key
    is named;
  - `visit` in `ProductMemory.GetProducts`.

  The update slice is a multiset, so the order of the writes within one
  update is not modelled.
- **Applied.** It is an assumption about how Firestore applies a
  field-by-field `Update`. The `disabled_at` stamp has no field in the
  order record, so re-reading never shows it. It covers only payloads
  (`Orders.FlagPayload`) whose boolean flags are the only order-record
  fields they name; an update that also writes `name`, `note` or another
  record field is echoed by `UpdateWrites` but not described by
  `Applied`.
- **Client record types.** `ClientCategory` and `ProductSimple` are not
  defined in the source. The category and product client lists are
  modelled with the full records.
- **`SearchOrders` service.** The handler calls a `SearchOrders` method that
  the order service interface does not declare. The service is a parameter
  of `HandleSearchOrders`.
- **Other handlers.** The product, category, advertise, banner, coupon and
  auth handlers are not modelled. They translate service results to
  replies the same way as the order handlers.
- **`GetSignedURL`.** Not modelled: nothing calls it, and it only forwards
  to the storage client.
- **Multipart parsing.** `ParseMultipartForm`'s 10 MB limit and parsing are
  not modelled. A form that fails to parse is `None`.
- **Concurrency.**
  - Handlers run concurrently, and the in-memory service's map is
    unsynchronised.
  - The order update's read-write-read is not transactional.

  Each operation is modelled as running alone.
- **Start-up.** Router set-up, route registration, and the fatal errors when
  creating the Firestore, Firebase and Storage clients are not modelled,
  nor is the OPTIONS pre-flight handler, which only answers 204.
- **String order.** Go compares strings byte by byte in UTF-8. The model
  compares Unicode scalar values, which orders valid UTF-8 strings the same
  way. Invalid UTF-8 is not modelled.
- **Timestamps are not write-once.** The update guards a stamp only on
  the flag stored at update time (order/firestore.go:89-103), so paying,
  unpaying and paying again re-stamps `paid_at`
  (`Orders.PaidAtIsRestamped`).

## Findings

| source | as written | input that shows it | evidently intended | confidence | as-written member | corrected member |
|---|---|---|---|---|---|---|
| order/handler.go:66-70 | the allow-list contains "is_enable", while the service and the order record use "is_enabled" | `{"is_enabled": false}` is rejected with 400 "Invalid field in request payload: is_enabled"; `{"is_enable": false}` is accepted and writes a stray field `is_enable` without disabling the order | "is_enabled" in the allow-list, so that an admin can disable an order and `disabled_at` is stamped | not executed; high: the key is spelled "is_enabled" in order/order.go and order/firestore.go:105 | OrderHandler.HandlerCannotDisable | OrderHandler.CorrectedHandlerCanDisable |

=== FILE: advertises.dfy ===
/** The Firestore-backed advertisement service (`advertise/firestore.go`). */
module Advertises {
  import opened Wrappers
  import opened Pagination
  import opened Search
  import opened Store

  datatype Advertise = Advertise(id: string, name: string, image: string, link: string, isEnabled: bool)

  /** The client-facing record: every field but `is_enabled`. */
  datatype ClientAdvertise = ClientAdvertise(id: string, name: string, image: string, link: string)

  predicate Keep(a: Advertise, search: string) {
    NameMatches(a.name, search)
  }

  function ToClient(a: Advertise): ClientAdvertise {
    ClientAdvertise(a.id, a.name, a.image, a.link)
  }

  /** `AdminCreateAdvertise`: the new document's id is set before the write. */
  function AdminCreateAdvertise(newId: string, a: Advertise, fault: Option<Error>): (r: Saved<Advertise>)
    ensures r.write.Set? && r.write.id == newId
    ensures r.write.doc == Advertise(newId, a.name, a.image, a.link, a.isEnabled)
    ensures r.reply.Ok? <==> fault.None?
    ensures r.reply.Ok? ==> r.reply.value == r.write.doc
  {
    var stamped := a.(id := newId);
    SetDoc(newId, stamped, stamped, fault)
  }

  /** `AdminGetAdvertises`: name-range filter for a non-empty search, then the
      page window; an out-of-range page is empty but still carries the count. */
  function AdminGetAdvertises(scan: Scan<Advertise>, page: int, pageSize: int, search: string): (r: Result<Listing<Advertise>>)
    ensures scan.fault.Some? ==> r == Err(scan.fault.value)
    ensures r.Ok? ==> forall i :: 0 <= i < |r.value.items| ==> Keep(r.value.items[i], search)
    ensures r.Ok? ==> r.value.totalCount == |Filter(Records(scan.docs), (a: Advertise) => Keep(a, search))|
    ensures scan.fault.None? ==> r == ListWindow(Filter(Records(scan.docs), (a: Advertise) => Keep(a, search)), page, pageSize)
    ensures r.Ok? && r.value.totalCount < Start(page, pageSize) ==> r.value.items == []
    ensures scan.fault.None? && page >= 1 && pageSize >= 0 ==> r.Ok?
  {
    ScanList(scan, (a: Advertise) => Keep(a, search), page, pageSize)
  }

  /** `AdminGetAdvertise`: a read failure or a decoding failure is returned. */
  function AdminGetAdvertise(read: Result<Snapshot<Advertise>>): (r: Result<Advertise>)
    ensures r.Ok? <==> read.Ok? && read.value.decodeError.None?
    ensures r.Ok? ==> r.value == read.value.data
    ensures read.Ok? && read.value.decodeError.Some? ==> r == Err(read.value.decodeError.value)
  {
    ReadChecked(read)
  }

  /** `AdminUpdateAdvertise`: the path id is set before the write. */
  function AdminUpdateAdvertise(id: string, a: Advertise, fault: Option<Error>): (r: Saved<Advertise>)
    ensures r.write.Set? && r.write.id == id
    ensures r.write.doc == Advertise(id, a.name, a.image, a.link, a.isEnabled)
    ensures r.reply.Ok? <==> fault.None?
    ensures r.reply.Ok? ==> r.reply.value == r.write.doc
  {
    var stamped := a.(id := id);
    SetDoc(id, stamped, stamped, fault)
  }

  function AdminDeleteAdvertise(id: string, fault: Option<Error>): (r: Removed<Advertise>)
    ensures r.write == Delete(id) && r.error == fault
  {
    DeleteDoc(id, fault)
  }

  /** `GetAdvertises`: the enabled documents only, in iteration order, projected to the client
      record; decoding errors are ignored. */
  function GetAdvertises(scan: Scan<Advertise>): (r: Result<seq<ClientAdvertise>>)
    ensures r.Err? <==> scan.fault.Some?
    ensures r.Ok? ==> forall c :: c in r.value ==> exists a :: a in Records(scan.docs) && a.isEnabled && ToClient(a) == c
    ensures r.Ok? ==> forall i :: 0 <= i < |scan.docs| && scan.docs[i].data.isEnabled ==> ToClient(scan.docs[i].data) in r.value
    ensures r.Ok? ==> var kept := Filter(Records(scan.docs), (a: Advertise) => a.isEnabled);
      |r.value| == |kept| && forall i :: 0 <= i < |kept| ==> r.value[i] == ToClient(kept[i])
  {
    var enabled :- ScanAll(scan, (a: Advertise) => a.isEnabled);
    var out := seq(|enabled|, i requires 0 <= i < |enabled| => ToClient(enabled[i]));
    assert forall i :: 0 <= i < |scan.docs| && scan.docs[i].data.isEnabled ==> scan.docs[i].data in enabled by {
      assert forall i :: 0 <= i < |scan.docs| ==> Records(scan.docs)[i] == scan.docs[i].data;
    }
    assert forall a :: a in enabled ==> ToClient(a) in out by {
      assert forall i :: 0 <= i < |enabled| ==> out[i] == ToClient(enabled[i]);
    }
    Ok(out)
  }
}

=== FILE: auth.dfy ===
/** The admin authentication middleware (`auth/jwt.go`): the Firebase ID
    token travels in the `X-Auth-Token` header as `Bearer <token>`. Obtaining
    the auth client and verifying the token are the identity service's
    business and are parameters here. */
module Auth {
  import opened Wrappers
  import opened Text
  import opened Http

  const BearerPrefix: string := "Bearer "

  const HeaderRequired: string := "X-Auth-Token header required"
  const NoBearer: string := "Could not find bearer token in X-Auth-Token header"
  const NoClient: string := "Failed to create Firebase auth client"
  const InvalidToken: string := "Invalid Firebase ID token"

  /** The two request headers the middleware reads ("" when absent). */
  datatype Request = Request(authToken: string, origin: string)

  /** A plain-text error reply with its `Access-Control-Allow-Origin` value,
      or the request passed on to the next handler with the verified token. */
  datatype Outcome =
    | Rejected(status: int, message: string, allowOrigin: string)
    | Forwarded(idToken: string)

  /** The outcome, and the token handed to `VerifyIDToken` if it was called. */
  datatype Checked = Checked(verified: Option<string>, outcome: Outcome)

  /** `FirebaseJWTMiddleware` for one request. `clientReady` is whether
      `fbApp.Auth` succeeded; `verify` is `VerifyIDToken`'s verdict. */
  function Middleware(req: Request, clientReady: bool, verify: string -> bool): (r: Checked)
    ensures req.authToken == "" ==> r == Checked(None, Rejected(StatusUnauthorized, HeaderRequired, req.origin))
    ensures req.authToken != "" && !IsPrefix(BearerPrefix, req.authToken) ==>
      r == Checked(None, Rejected(StatusUnauthorized, NoBearer, req.origin))
    ensures IsPrefix(BearerPrefix, req.authToken) && !clientReady ==>
      r == Checked(None, Rejected(StatusInternalServerError, NoClient, req.origin))
    ensures r.verified.Some? <==> IsPrefix(BearerPrefix, req.authToken) && clientReady
    ensures r.verified.Some? ==> BearerPrefix + r.verified.value == req.authToken
    ensures r.verified.Some? && !verify(r.verified.value) ==>
      r.outcome == Rejected(StatusUnauthorized, InvalidToken, req.origin)
    ensures r.outcome.Forwarded? <==> r.verified.Some? && verify(r.verified.value)
    ensures r.outcome.Forwarded? ==> r.outcome.idToken == r.verified.value
    ensures r.outcome.Rejected? ==> r.outcome.allowOrigin == req.origin
  {
    var header := req.authToken;
    if header == "" then Checked(None, Rejected(StatusUnauthorized, HeaderRequired, req.origin))
    else
      var token := TrimPrefix(header, BearerPrefix);
      assert IsPrefix(BearerPrefix, header) ==> |token| + |BearerPrefix| == |header|;
      if token == header then Checked(None, Rejected(StatusUnauthorized, NoBearer, req.origin))
      else if !clientReady then Checked(None, Rejected(StatusInternalServerError, NoClient, req.origin))
      else if !verify(token) then Checked(Some(token), Rejected(StatusUnauthorized, InvalidToken, req.origin))
      else Checked(Some(token), Forwarded(token))
  }

  /** The prefix is matched case-sensitively: no header that starts with a
      lower-case "bearer " reaches the verifier. */
  lemma PrefixIsCaseSensitive(header: string, origin: string, clientReady: bool, verify: string -> bool)
    requires IsPrefix("bearer ", header)
    ensures Middleware(Request(header, origin), clientReady, verify) ==
      Checked(None, Rejected(StatusUnauthorized, NoBearer, origin))
  {
    assert header[0] == header[..7][0] == 'b';
    assert !IsPrefix(BearerPrefix, header) by {
      assert BearerPrefix[0] == 'B';
    }
  }

  /** "Bearer " alone is not rejected locally: the empty token goes to the
      verifier, and only one leading prefix is removed. */
  lemma BareAndDoublePrefix(origin: string, verify: string -> bool)
    ensures Middleware(Request("Bearer ", origin), true, verify).verified == Some("")
    ensures Middleware(Request("Bearer Bearer t", origin), true, verify).verified == Some("Bearer t")
  {
    assert "Bearer "[..7] == BearerPrefix;
    assert "Bearer Bearer t"[..7] == BearerPrefix;
  }
}

=== FILE: banners.dfy ===
/** The Firestore-backed banner service (`banner/firestore.go`). */
module Banners {
  import opened Wrappers
  import opened Pagination
  import opened Search
  import opened Store

  datatype Banner = Banner(id: string, name: string, image: string, isEnabled: bool)

  /** The client-facing record: every field but `is_enabled`. */
  datatype ClientBanner = ClientBanner(id: string, name: string, image: string)

  predicate Keep(b: Banner, search: string) {
    NameMatches(b.name, search)
  }

  function ToClient(b: Banner): ClientBanner {
    ClientBanner(b.id, b.name, b.image)
  }

  /** `AdminCreateBanner`: the new document's id is set before the write. */
  function AdminCreateBanner(newId: string, b: Banner, fault: Option<Error>): (r: Saved<Banner>)
    ensures r.write.Set? && r.write.id == newId
    ensures r.write.doc == Banner(newId, b.name, b.image, b.isEnabled)
    ensures r.reply.Ok? <==> fault.None?
    ensures r.reply.Ok? ==> r.reply.value == r.write.doc
  {
    var stamped := b.(id := newId);
    SetDoc(newId, stamped, stamped, fault)
  }

  /** `AdminGetBanners`: name-range filter for a non-empty search, then the
      page window; an out-of-range page is empty but still carries the count. */
  function AdminGetBanners(scan: Scan<Banner>, page: int, pageSize: int, search: string): (r: Result<Listing<Banner>>)
    ensures scan.fault.Some? ==> r == Err(scan.fault.value)
    ensures r.Ok? ==> forall i :: 0 <= i < |r.value.items| ==> Keep(r.value.items[i], search)
    ensures r.Ok? ==> r.value.totalCount == |Filter(Records(scan.docs), (b: Banner) => Keep(b, search))|
    ensures scan.fault.None? ==> r == ListWindow(Filter(Records(scan.docs), (b: Banner) => Keep(b, search)), page, pageSize)
    ensures r.Ok? && r.value.totalCount < Start(page, pageSize) ==> r.value.items == []
    ensures scan.fault.None? && page >= 1 && pageSize >= 0 ==> r.Ok?
  {
    ScanList(scan, (b: Banner) => Keep(b, search), page, pageSize)
  }

  /** `AdminGetBanner`: a read failure or a decoding failure is returned. */
  function AdminGetBanner(read: Result<Snapshot<Banner>>): (r: Result<Banner>)
    ensures r.Ok? <==> read.Ok? && read.value.decodeError.None?
    ensures r.Ok? ==> r.value == read.value.data
    ensures read.Ok? && read.value.decodeError.Some? ==> r == Err(read.value.decodeError.value)
  {
    ReadChecked(read)
  }

  /** `AdminUpdateBanner`: the path id is set before the write. */
  function AdminUpdateBanner(id: string, b: Banner, fault: Option<Error>): (r: Saved<Banner>)
    ensures r.write.Set? && r.write.id == id
    ensures r.write.doc == Banner(id, b.name, b.image, b.isEnabled)
    ensures r.reply.Ok? <==> fault.None?
    ensures r.reply.Ok? ==> r.reply.value == r.write.doc
  {
    var stamped := b.(id := id);
    SetDoc(id, stamped, stamped, fault)
  }

  function AdminDeleteBanner(id: string, fault: Option<Error>): (r: Removed<Banner>)
    ensures r.write == Delete(id) && r.error == fault
  {
    DeleteDoc(id, fault)
  }

  /** `GetBanners`: the enabled documents only, in iteration order, projected to the client
      record; decoding errors are ignored. */
  function GetBanners(scan: Scan<Banner>): (r: Result<seq<ClientBanner>>)
    ensures r.Err? <==> scan.fault.Some?
    ensures r.Ok? ==> forall c :: c in r.value ==> exists b :: b in Records(scan.docs) && b.isEnabled && ToClient(b) == c
    ensures r.Ok? ==> forall i :: 0 <= i < |scan.docs| && scan.docs[i].data.isEnabled ==> ToClient(scan.docs[i].data) in r.value
    ensures r.Ok? ==> var kept := Filter(Records(scan.docs), (b: Banner) => b.isEnabled);
      |r.value| == |kept| && forall i :: 0 <= i < |kept| ==> r.value[i] == ToClient(kept[i])
  {
    var enabled :- ScanAll(scan, (b: Banner) => b.isEnabled);
    var out := seq(|enabled|, i requires 0 <= i < |enabled| => ToClient(enabled[i]));
    assert forall i :: 0 <= i < |scan.docs| && scan.docs[i].data.isEnabled ==> scan.docs[i].data in enabled by {
      assert forall i :: 0 <= i < |scan.docs| ==> Records(scan.docs)[i] == scan.docs[i].data;
    }
    assert forall b :: b in enabled ==> ToClient(b) in out by {
      assert forall i :: 0 <= i < |enabled| ==> out[i] == ToClient(enabled[i]);
    }
    Ok(out)
  }
}

=== FILE: categories.dfy ===
/** The Firestore-backed category service (`category/firestore.go`). */
module Categories {
  import opened Wrappers
  import opened Pagination
  import opened Search
  import opened Store

  datatype Category = Category(id: string, name: string, isEnabled: bool)

  predicate Keep(c: Category, search: string) {
    NameMatches(c.name, search)
  }

  /** `AdminCreateCategory`: the new document's id is set before the write. */
  function AdminCreateCategory(newId: string, c: Category, fault: Option<Error>): (r: Saved<Category>)
    ensures r.write.Set? && r.write.id == newId
    ensures r.write.doc == Category(newId, c.name, c.isEnabled)
    ensures r.reply.Ok? <==> fault.None?
    ensures r.reply.Ok? ==> r.reply.value == r.write.doc
  {
    var stamped := c.(id := newId);
    SetDoc(newId, stamped, stamped, fault)
  }

  /** `AdminGetCategories`: name-range filter for a non-empty search, then the
      page window; the count is the filtered count. */
  function AdminGetCategories(scan: Scan<Category>, page: int, pageSize: int, search: string): (r: Result<Listing<Category>>)
    ensures scan.fault.Some? ==> r == Err(scan.fault.value)
    ensures r.Ok? ==> forall i :: 0 <= i < |r.value.items| ==> Keep(r.value.items[i], search)
    ensures r.Ok? ==> r.value.totalCount == |Filter(Records(scan.docs), (c: Category) => Keep(c, search))|
    ensures scan.fault.None? ==> r == ListWindow(Filter(Records(scan.docs), (c: Category) => Keep(c, search)), page, pageSize)
    ensures r.Ok? && r.value.totalCount < Start(page, pageSize) ==> r.value.items == []
    ensures scan.fault.None? && page >= 1 && pageSize >= 0 ==> r.Ok?
  {
    ScanList(scan, (c: Category) => Keep(c, search), page, pageSize)
  }

  /** `AdminGetCategory`: a read failure or a decoding failure is returned;
      a zero record is never passed off as a category. */
  function AdminGetCategory(read: Result<Snapshot<Category>>): (r: Result<Category>)
    ensures r.Ok? <==> read.Ok? && read.value.decodeError.None?
    ensures r.Ok? ==> r.value == read.value.data
    ensures read.Ok? && read.value.decodeError.Some? ==> r == Err(read.value.decodeError.value)
  {
    ReadChecked(read)
  }

  /** `AdminUpdateCategory`: the path id is set before the write, so the
      stored and the returned record agree. */
  function AdminUpdateCategory(id: string, c: Category, fault: Option<Error>): (r: Saved<Category>)
    ensures r.write.Set? && r.write.id == id
    ensures r.write.doc == Category(id, c.name, c.isEnabled)
    ensures r.reply.Ok? <==> fault.None?
    ensures r.reply.Ok? ==> r.reply.value == r.write.doc
    ensures fault.Some? ==> r.reply == Err(fault.value)
  {
    var stamped := c.(id := id);
    SetDoc(id, stamped, stamped, fault)
  }

  function AdminDeleteCategory(id: string, fault: Option<Error>): (r: Removed<Category>)
    ensures r.write == Delete(id) && r.error == fault
  {
    DeleteDoc(id, fault)
  }

  /** The store-side `is_enabled == true` condition, on the decoded record. */
  predicate Enabled(c: Category) {
    c.isEnabled
  }

  /** `GetCategories`: only documents whose `is_enabled` is true, all of them,
      in iteration order; the first decoding failure among them is returned,
      and otherwise the failure that ended the iteration. */
  function GetCategories(scan: Scan<Category>): (r: Result<seq<Category>>)
    ensures r.Ok? ==> forall i :: 0 <= i < |r.value| ==> r.value[i].isEnabled
    ensures r.Ok? ==> forall i :: 0 <= i < |scan.docs| && scan.docs[i].data.isEnabled ==> scan.docs[i].data in r.value
    ensures scan.fault.Some? ==> r.Err?
    ensures (exists i :: 0 <= i < |scan.docs| && scan.docs[i].data.isEnabled && scan.docs[i].decodeError.Some?) ==> r.Err?
    ensures r.Ok? <==>
      && scan.fault.None?
      && forall i :: 0 <= i < |scan.docs| && scan.docs[i].data.isEnabled ==> scan.docs[i].decodeError.None?
    ensures r.Ok? ==> r.value == Filter(Records(scan.docs), Enabled)
    ensures var y := Kept(scan.docs, Enabled);
      FirstDecodeError(y).Some? ==> r == Err(y[FirstDecodeError(y).value].decodeError.value)
    ensures FirstDecodeError(Kept(scan.docs, Enabled)).None? && scan.fault.Some? ==> r == Err(scan.fault.value)
  {
    var r := ScanAllChecked(scan, Enabled);
    EnabledScanSucceedsIff(scan);
    RecordsOfFilter(scan.docs, Enabled);
    r
  }

  /** The checked scan fails exactly on an iteration failure or a decoding
      failure of an enabled document. */
  lemma EnabledScanSucceedsIff(scan: Scan<Category>)
    ensures ScanAllChecked(scan, Enabled).Ok? <==>
      && scan.fault.None?
      && forall i :: 0 <= i < |scan.docs| && Enabled(scan.docs[i].data) ==> scan.docs[i].decodeError.None?
  {
    var yielded := Kept(scan.docs, Enabled);
    assert forall i :: 0 <= i < |scan.docs| && Enabled(scan.docs[i].data) ==> scan.docs[i] in yielded;
    assert forall j :: 0 <= j < |yielded| ==> yielded[j] in scan.docs && Enabled(yielded[j].data);
  }
}

=== FILE: coupons.dfy ===
/** The Firestore-backed coupon service (`coupon/firestore.go`). */
module Coupons {
  import opened Wrappers
  import opened Pagination
  import opened Search
  import opened Store

  /** The `int64` time fields of the Go record. */
  newtype Int64 = x: int | -0x8000_0000_0000_0000 <= x < 0x8000_0000_0000_0000

  datatype Coupon = Coupon(
    id: string,
    name: string,
    code: string,
    percent: int,
    startTime: Int64,
    endTime: Int64,
    isEnabled: bool)

  predicate Keep(c: Coupon, search: string) {
    NameMatches(c.name, search)
  }

  /** `CreateCoupon`: the new document's id replaces the payload's before the write. */
  function CreateCoupon(newId: string, c: Coupon, fault: Option<Error>): (r: Saved<Coupon>)
    ensures r.write.Set? && r.write.id == newId
    ensures r.write.doc.id == newId && r.write.doc.(id := c.id) == c
    ensures r.reply.Ok? <==> fault.None?
    ensures r.reply.Ok? ==> r.reply.value == r.write.doc
  {
    var stamped := c.(id := newId);
    SetDoc(newId, stamped, stamped, fault)
  }

  /** `GetCoupons`: name-range filter for a non-empty search, then the page
      window; an out-of-range page is empty but still carries the count. */
  function GetCoupons(scan: Scan<Coupon>, page: int, pageSize: int, search: string): (r: Result<Listing<Coupon>>)
    ensures scan.fault.Some? ==> r == Err(scan.fault.value)
    ensures r.Ok? ==> forall i :: 0 <= i < |r.value.items| ==> Keep(r.value.items[i], search)
    ensures r.Ok? ==> r.value.totalCount == |Filter(Records(scan.docs), (c: Coupon) => Keep(c, search))|
    ensures scan.fault.None? ==> r == ListWindow(Filter(Records(scan.docs), (c: Coupon) => Keep(c, search)), page, pageSize)
    ensures r.Ok? && r.value.totalCount < Start(page, pageSize) ==> r.value.items == []
    ensures scan.fault.None? && page >= 1 && pageSize >= 0 ==> r.Ok?
  {
    ScanList(scan, (c: Coupon) => Keep(c, search), page, pageSize)
  }

  /** `GetCoupon`: a failed read is returned; a decoding error is ignored. */
  function GetCoupon(read: Result<Snapshot<Coupon>>): (r: Result<Coupon>)
    ensures r.Ok? <==> read.Ok?
    ensures r.Ok? ==> r.value == read.value.data
    ensures read.Err? ==> r.error == read.error
  {
    ReadLenient(read)
  }

  /** `UpdateCoupon`: the payload is written exactly as given; the reply
      carries the path id. */
  function UpdateCoupon(id: string, c: Coupon, fault: Option<Error>): (r: Saved<Coupon>)
    ensures r.write == Set(id, c)
    ensures r.reply.Ok? <==> fault.None?
    ensures r.reply.Ok? ==> r.reply.value.id == id && r.reply.value.(id := c.id) == c
  {
    SetDoc(id, c, c.(id := id), fault)
  }

  function DeleteCoupon(id: string, fault: Option<Error>): (r: Removed<Coupon>)
    ensures r.write == Delete(id) && r.error == fault
  {
    DeleteDoc(id, fault)
  }
}

=== FILE: decimal.dfy ===
/** Base-10 rendering of integers, as produced by `strconv.FormatInt(n, 10)`
    and `fmt.Sprintf("%d", n)`, together with the parser that inverts it.
    The services use the rendering for time stamps and in-memory product ids;
    the parser exists to prove that the rendering is injective. */
module Decimal {
  import opened Wrappers

  predicate IsDigit(c: char) {
    '0' <= c <= '9'
  }

  predicate AllDigits(s: string) {
    forall i :: 0 <= i < |s| ==> IsDigit(s[i])
  }

  function DigitChar(d: nat): (c: char)
    requires d < 10
    ensures IsDigit(c) && c as int - '0' as int == d
  {
    ('0' as int + d) as char
  }

  function DigitValue(c: char): (d: nat)
    requires IsDigit(c)
    ensures d < 10 && DigitChar(d) == c
  {
    c as int - '0' as int
  }

  /** The decimal digits of `n`, most significant first, with no leading zero. */
  function NatToDecimal(n: nat): (s: string)
    ensures |s| >= 1 && AllDigits(s)
    ensures s[0] == '0' ==> n == 0 && |s| == 1
    decreases n
  {
    if n < 10 then [DigitChar(n)] else NatToDecimal(n / 10) + [DigitChar(n % 10)]
  }

  /** `strconv.FormatInt(n, 10)`: a minus sign for negative values. */
  function FormatInt(n: int): (s: string)
    ensures |s| >= 1
    ensures n < 0 <==> s[0] == '-'
  {
    if n < 0 then "-" + NatToDecimal(-n) else NatToDecimal(n)
  }

  /** The value of a string of digits, most significant first. */
  function DigitsValue(s: string): nat
    requires AllDigits(s)
    decreases |s|
  {
    if |s| == 0 then 0 else DigitsValue(s[..|s| - 1]) * 10 + DigitValue(s[|s| - 1])
  }

  /** A canonical decimal string: non-empty, digits only, no leading zero. */
  predicate IsCanonical(s: string) {
    |s| >= 1 && AllDigits(s) && (s[0] == '0' ==> |s| == 1)
  }

  function ParseNat(s: string): Option<nat> {
    if IsCanonical(s) then Some(DigitsValue(s)) else None
  }

  function ParseInt(s: string): Option<int> {
    if |s| >= 1 && s[0] == '-' then
      match ParseNat(s[1..])
      case Some(n) => if n == 0 then None else Some(0 - n as int)
      case None => None
    else
      match ParseNat(s)
      case Some(n) => Some(n)
      case None => None
  }

  lemma {:induction false} DigitsOfDecimal(n: nat)
    ensures DigitsValue(NatToDecimal(n)) == n
    decreases n
  {
    if n >= 10 {
      var s := NatToDecimal(n);
      assert s[..|s| - 1] == NatToDecimal(n / 10);
      DigitsOfDecimal(n / 10);
    }
  }

  /** Parsing inverts rendering. */
  lemma ParseFormatNat(n: nat)
    ensures ParseNat(NatToDecimal(n)) == Some(n)
  {
    DigitsOfDecimal(n);
  }

  /** A canonical string with more than one digit is worth at least 10. */
  lemma {:induction false} CanonicalValueBound(s: string)
    requires IsCanonical(s) && |s| >= 2
    ensures DigitsValue(s) >= 10
  {
    var init := s[..|s| - 1];
    assert init[0] == s[0];
    LeadingDigitPositive(init);
  }

  lemma {:induction false} LeadingDigitPositive(s: string)
    requires |s| >= 1 && AllDigits(s) && s[0] != '0'
    ensures DigitsValue(s) >= 1
    decreases |s|
  {
    if |s| > 1 {
      var init := s[..|s| - 1];
      assert init[0] == s[0];
      LeadingDigitPositive(init);
    }
  }

  /** Rendering inverts parsing: canonical strings are exactly the renderings. */
  lemma {:induction false} FormatParseNat(s: string)
    requires ParseNat(s).Some?
    ensures NatToDecimal(ParseNat(s).value) == s
    decreases |s|
  {
    var n := DigitsValue(s);
    if |s| == 1 {
      assert DigitsValue(s[..0]) == 0;
      assert n == DigitValue(s[0]) < 10;
      assert NatToDecimal(n) == [s[0]];
    } else {
      var init := s[..|s| - 1];
      assert init[0] == s[0];
      CanonicalValueBound(s);
      assert ParseNat(init).Some?;
      FormatParseNat(init);
      assert n / 10 == DigitsValue(init) && n % 10 == DigitValue(s[|s| - 1]);
      assert s == init + [s[|s| - 1]];
    }
  }

  lemma ParseFormatInt(n: int)
    ensures ParseInt(FormatInt(n)) == Some(n)
  {
    if n < 0 {
      assert FormatInt(n)[1..] == NatToDecimal(-n);
      ParseFormatNat(-n);
    } else {
      ParseFormatNat(n);
    }
  }

  /** Distinct numbers render to distinct strings. */
  lemma FormatIntInjective(a: int, b: int)
    requires FormatInt(a) == FormatInt(b)
    ensures a == b
  {
    ParseFormatInt(a);
    ParseFormatInt(b);
  }
}

=== FILE: http.dfy ===
/** The JSON replies the handlers write (`RespondWithJSON`, `RespondWithError`):
    a status code and either the data of a success or an error message. */
module Http {
  import opened Wrappers

  const StatusOK: int := 200
  const StatusCreated: int := 201
  const StatusBadRequest: int := 400
  const StatusUnauthorized: int := 401
  const StatusNotFound: int := 404
  const StatusInternalServerError: int := 500

  /** An error message: a fixed text, or the text of an error returned by a
      callee (`err.Error()`). */
  datatype Message = Says(text: string) | ErrorText(error: Error)

  /** The response body: `data` with message "success", or an error message. */
  datatype Body<T> = Success(data: T) | Failure(message: Message)

  datatype Reply<T> = Reply(status: int, body: Body<T>)

  /** A handler's observable behaviour: the argument it passed to the service,
      if it called it at all, and the reply it wrote. */
  datatype Handled<A, T> = Handled(call: Option<A>, reply: Reply<T>)

  function Fail<T>(status: int, text: string): Reply<T> {
    Reply(status, Failure(Says(text)))
  }
}

=== FILE: order_handler.dfy ===
/** The HTTP handlers of the order resource (`order/handler.go`): payload
    validation in front of the order service. The service is a parameter, so
    each handler's reply is stated for every answer the service can give, and
    `call` records whether and with what the service was called. */
module OrderHandler {
  import opened Wrappers
  import opened Pagination
  import opened Http
  import opened Orders
  import Store
  import Text

  // ------------------------------------------------------------ UpdateOrder

  /** The keys `UpdateOrder` lets through, exactly as the handler spells them. */
  const AllowedKeys: set<string> := {"is_enable", "is_picked", "is_paid"}

  const InvalidPayload: string := "Invalid request payload"
  const InvalidFieldPrefix: string := "Invalid field in request payload: "

  /** The first key of `keys`, in that order, outside `allowed`. */
  function FirstDisallowed(keys: seq<string>, allowed: set<string>): (r: Option<string>)
    ensures r.None? <==> forall i :: 0 <= i < |keys| ==> keys[i] in allowed
    ensures r.Some? ==> r.value in keys && r.value !in allowed
    ensures r.Some? ==> exists i :: 0 <= i < |keys| && keys[i] == r.value && forall j :: 0 <= j < i ==> keys[j] in allowed
    decreases |keys|
  {
    if |keys| == 0 then None
    else if keys[0] !in allowed then Some(keys[0])
    else
      var rest := FirstDisallowed(keys[1..], allowed);
      if rest.Some? then
        assert forall j :: 1 <= j < |keys| ==> keys[j] == keys[1..][j - 1];
        rest
      else
        assert forall i :: 1 <= i < |keys| ==> keys[i] == keys[1..][i - 1];
        rest
  }

  /** The payload check of `UpdateOrder` against an allow-list. `order` is the
      order in which Go's `range` happened to visit the payload's keys; the
      reply names the first disallowed key met. */
  function CheckedUpdate(allowed: set<string>, id: string, body: Option<Payload>, order: seq<string>,
                         service: (string, Payload) -> Result<Order>): (r: Handled<(string, Payload), Order>)
    requires body.Some? ==> forall k :: k in order <==> k in body.value
  {
    match body
    case None => Handled(None, Fail(StatusBadRequest, InvalidPayload))
    case Some(data) =>
      match FirstDisallowed(order, allowed)
      case Some(key) => Handled(None, Fail(StatusBadRequest, InvalidFieldPrefix + key))
      case None =>
        match service(id, data)
        case Err(_) => Handled(Some((id, data)), Fail(StatusNotFound, "Order not found"))
        case Ok(o) => Handled(Some((id, data)), Reply(StatusOK, Success(o)))
  }

  /** `UpdateOrder`: an undecodable body or any key outside the allow-list is
      rejected with 400 before the service is called; otherwise the service
      gets the path id and the payload unchanged, and ANY error it returns is
      answered with 404. */
  function HandleUpdateOrder(id: string, body: Option<Payload>, order: seq<string>,
                             service: (string, Payload) -> Result<Order>): (r: Handled<(string, Payload), Order>)
    requires body.Some? ==> forall k :: k in order <==> k in body.value
    ensures body.None? ==> r == Handled(None, Fail(StatusBadRequest, InvalidPayload))
    ensures r.call.Some? <==> body.Some? && body.value.Keys <= AllowedKeys
    ensures r.call.Some? ==> r.call.value == (id, body.value)
    ensures body.Some? && !(body.value.Keys <= AllowedKeys) ==>
      r.reply.status == StatusBadRequest &&
      exists k :: k in body.value && k !in AllowedKeys && r.reply == Fail(StatusBadRequest, InvalidFieldPrefix + k)
    ensures r.call.Some? && service(id, body.value).Err? ==> r.reply == Fail(StatusNotFound, "Order not found")
    ensures r.call.Some? && service(id, body.value).Ok? ==> r.reply == Reply(StatusOK, Success(service(id, body.value).value))
  {
    CheckedUpdate(AllowedKeys, id, body, order, service)
  }

  /** Through the handler no update can stamp `disabled_at` or change the
      stored `is_enabled` flag: the service reacts to "is_enabled", which the
      allow-list rejects. */
  lemma HandlerCannotDisable(id: string, body: Option<Payload>, order: seq<string>,
                             service: (string, Payload) -> Result<Order>, orig: Order, stamp: string)
    requires body.Some? ==> forall k :: k in order <==> k in body.value
    requires HandleUpdateOrder(id, body, order, service).call.Some?
    ensures var data := HandleUpdateOrder(id, body, order, service).call.value.1;
      && !StampsDisabled(data)
      && (forall u :: u in UpdateWrites(orig, data, stamp) ==> u.path != DisabledAtPath)
      && (FlagPayload(data) ==> Applied(orig, data, stamp).isEnabled == orig.isEnabled)
  {
    var data := HandleUpdateOrder(id, body, order, service).call.value.1;
    assert EnabledKey !in AllowedKeys;
    assert DisabledAtPath !in AllowedKeys;
  }

  /** The allowed key "is_enable" reaches the store as a field of its own:
      it is written as given and derives nothing. */
  lemma IsEnableWrittenVerbatim(orig: Order, stamp: string)
    ensures var data := map["is_enable" := Bool(false)];
      && data.Keys <= AllowedKeys
      && UpdateWrites(orig, data, stamp) == multiset{FieldUpdate("is_enable", Bool(false))}
  {
    var data := map["is_enable" := Bool(false)];
    assert data.Keys == {"is_enable"};
    forall u | u in Echo(data)
      ensures u == FieldUpdate("is_enable", Bool(false))
    {
    }
    assert FieldUpdate("is_enable", Bool(false)) in Echo(data);
    assert Echo(data) == {FieldUpdate("is_enable", Bool(false))};
    assert PaidKey[3] != "is_enable"[3] && PickedKey[4] != "is_enable"[4] && |EnabledKey| != |"is_enable"|;
    assert !StampsPaid(orig, data) && !StampsPicked(orig, data) && !StampsDisabled(data);
  }

  /** The allow-list with the key the service actually reacts to. */
  const IntendedKeys: set<string> := {"is_enabled", "is_picked", "is_paid"}

  /** `UpdateOrder` with the allow-list spelled as the order record and the
      service spell the flag. */
  function HandleUpdateOrderCorrected(id: string, body: Option<Payload>, order: seq<string>,
                                      service: (string, Payload) -> Result<Order>): (r: Handled<(string, Payload), Order>)
    requires body.Some? ==> forall k :: k in order <==> k in body.value
    ensures r.call.Some? <==> body.Some? && body.value.Keys <= IntendedKeys
    ensures r.call.Some? ==> r.call.value == (id, body.value)
  {
    CheckedUpdate(IntendedKeys, id, body, order, service)
  }

  /** With the corrected allow-list an order can be disabled: the payload is
      forwarded, `disabled_at` is stamped and the flag is cleared. */
  lemma CorrectedHandlerCanDisable(id: string, service: (string, Payload) -> Result<Order>, orig: Order, stamp: string)
    ensures var data := map[EnabledKey := Bool(false)];
      && HandleUpdateOrderCorrected(id, Some(data), [EnabledKey], service).call == Some((id, data))
      && FieldUpdate(DisabledAtPath, Text(stamp)) in UpdateWrites(orig, data, stamp)
      && !Applied(orig, data, stamp).isEnabled
  {
  }

  // ------------------------------------------------------------ CreateOrder

  predicate ValidItem(p: LineItem) {
    p.name != "" && p.count > 0 && p.price > 0
  }

  /** The declarative reading of the checks: what a request must satisfy to
      reach the service. */
  predicate ValidRequest(req: CreateOrderRequest) {
    && req.mail != "" && req.name != "" && |req.products| > 0
    && forall i :: 0 <= i < |req.products| ==> ValidItem(req.products[i])
  }

  /** The message for the first failing field check of one line item. */
  function ItemError(p: LineItem): (r: Option<string>)
    ensures r.None? <==> ValidItem(p)
  {
    if p.name == "" then Some("product name is required")
    else if p.count <= 0 then Some("product count must be positive")
    else if p.price <= 0 then Some("product price must be positive")
    else None
  }

  /** The checks over the line items, in order; the first failure wins. */
  function ItemsError(items: seq<LineItem>): (r: Option<string>)
    ensures r.None? <==> forall i :: 0 <= i < |items| ==> ValidItem(items[i])
    ensures r.Some? ==> exists i :: 0 <= i < |items| && ItemError(items[i]) == r &&
                                   forall j :: 0 <= j < i ==> ValidItem(items[j])
    decreases |items|
  {
    if |items| == 0 then None
    else if ItemError(items[0]).Some? then ItemError(items[0])
    else
      var rest := ItemsError(items[1..]);
      assert forall i :: 1 <= i < |items| ==> items[i] == items[1..][i - 1];
      rest
  }

  /** `validateCreateOrderRequest`: mail, then name, then a non-empty product
      list, then every line item; the message of the first failed check. */
  function ValidateCreateOrderRequest(req: CreateOrderRequest): (r: Option<string>)
    ensures r.None? <==> ValidRequest(req)
    ensures r == Some("mail is required") <==> req.mail == ""
    ensures r == Some("name is required") <==> req.mail != "" && req.name == ""
    ensures r == Some("products are required") <==> req.mail != "" && req.name != "" && |req.products| == 0
    ensures req.mail != "" && req.name != "" && |req.products| > 0 ==> r == ItemsError(req.products)
  {
    if req.mail == "" then Some("mail is required")
    else if req.name == "" then Some("name is required")
    else if |req.products| == 0 then Some("products are required")
    else
      var r := ItemsError(req.products);
      assert r.Some? ==> exists i :: 0 <= i < |req.products| && ItemError(req.products[i]) == r;
      r
  }

  /** `CreateOrder`: 400 for an undecodable body or a failed check, and the
      service is not called; 500 with the service's error; 201 with the
      created order. */
  function HandleCreateOrder(body: Option<CreateOrderRequest>, service: CreateOrderRequest -> Result<Order>): (r: Handled<CreateOrderRequest, Order>)
    ensures body.None? ==> r == Handled(None, Fail(StatusBadRequest, InvalidPayload))
    ensures r.call.Some? <==> body.Some? && ValidRequest(body.value)
    ensures r.call.Some? ==> r.call.value == body.value
    ensures body.Some? && !ValidRequest(body.value) ==>
      r.reply == Fail(StatusBadRequest, ValidateCreateOrderRequest(body.value).value)
    ensures r.call.Some? && service(body.value).Err? ==>
      r.reply == Reply(StatusInternalServerError, Failure(ErrorText(service(body.value).error)))
    ensures r.call.Some? && service(body.value).Ok? ==> r.reply == Reply(StatusCreated, Success(service(body.value).value))
  {
    match body
    case None => Handled(None, Fail(StatusBadRequest, InvalidPayload))
    case Some(req) =>
      match ValidateCreateOrderRequest(req)
      case Some(msg) => Handled(None, Fail(StatusBadRequest, msg))
      case None =>
        match service(req)
        case Err(e) => Handled(Some(req), Reply(StatusInternalServerError, Failure(ErrorText(e))))
        case Ok(o) => Handled(Some(req), Reply(StatusCreated, Success(o)))
  }

  /** Every order the handler lets the service create is enabled, unpaid and
      unpicked, and its total is at least one per line item, so positive. */
  lemma CreatedOrdersArePositive(body: Option<CreateOrderRequest>, service: CreateOrderRequest -> Result<Order>,
                                 newId: string, now: int, fault: Option<Error>)
    requires HandleCreateOrder(body, service).call.Some?
    ensures var req := HandleCreateOrder(body, service).call.value;
      var o := CreateOrder(req, newId, now, fault).write.doc;
      o.totalPrice >= |req.products| >= 1 && o.isEnabled && !o.isPaid && !o.isPicked
  {
    var req := HandleCreateOrder(body, service).call.value;
    assert forall i :: 0 <= i < |req.products| ==> ValidItem(req.products[i]);
  }

  // ------------------------------------------------------------ SearchOrders

  /** `SearchOrders`: an empty search is rejected with 400 and the service is
      not called; otherwise 500 with the service's error or 200 with its
      orders. */
  function HandleSearchOrders(search: string, service: string -> Result<seq<Order>>): (r: Handled<string, seq<Order>>)
    ensures r.call.Some? <==> search != ""
    ensures search == "" ==> r.reply == Fail(StatusBadRequest, "search parameter is required")
    ensures r.call.Some? ==> r.call.value == search
    ensures search != "" && service(search).Err? ==>
      r.reply == Reply(StatusInternalServerError, Failure(ErrorText(service(search).error)))
    ensures search != "" && service(search).Ok? ==> r.reply == Reply(StatusOK, Success(service(search).value))
  {
    if search == "" then Handled(None, Fail(StatusBadRequest, "search parameter is required"))
    else
      match service(search)
      case Err(e) => Handled(Some(search), Reply(StatusInternalServerError, Failure(ErrorText(e))))
      case Ok(orders) => Handled(Some(search), Reply(StatusOK, Success(orders)))
  }

  // --------------------------------------------------------------- GetOrders

  /** A paginated reply: the page's items and the paginator. */
  datatype Paged<T> = Paged(items: seq<T>, pagination: Pagination)

  /** `GetOrders`: the page parameters are normalised before the service is
      called; 500 with the service's error, else 200 with the page and a
      paginator built from the normalised parameters and the total. */
  function HandleGetOrders(page: Option<int>, pageSize: Option<int>, search: string,
                           service: (int, int, string) -> Result<Listing<Order>>): (r: Handled<(int, int, string), Paged<Order>>)
    ensures r.call.Some?
    ensures (r.call.value.0, r.call.value.1) == GetPaginationParams(page, pageSize)
    ensures page.None? || page.value < 1 ==> r.call.value.0 == 1
    ensures pageSize.None? || pageSize.value < 1 ==> r.call.value.1 == 10
    ensures r.call.value.0 >= 1 && r.call.value.1 >= 1 && r.call.value.2 == search
    ensures page.Some? && page.value >= 1 ==> r.call.value.0 == page.value
    ensures pageSize.Some? && pageSize.value >= 1 ==> r.call.value.1 == pageSize.value
    ensures var (p, ps, s) := r.call.value;
      match service(p, ps, s)
      case Err(e) => r.reply == Reply(StatusInternalServerError, Failure(ErrorText(e)))
      case Ok(l) =>
        && r.reply.status == StatusOK && r.reply.body.Success?
        && r.reply.body.data.items == l.items
        && r.reply.body.data.pagination == New(p, ps, l.totalCount)
        && r.reply.body.data.pagination.currentPage == p
        && r.reply.body.data.pagination.pageSize == ps
  {
    var (p, ps) := GetPaginationParams(page, pageSize);
    match service(p, ps, search)
    case Err(e) => Handled(Some((p, ps, search)), Reply(StatusInternalServerError, Failure(ErrorText(e))))
    case Ok(l) => Handled(Some((p, ps, search)), Reply(StatusOK, Success(Paged(l.items, New(p, ps, l.totalCount)))))
  }

  /** Served by the Firestore order service over a scan that ends cleanly,
      the list reply is always 200, and its page is non-empty exactly when
      the current page is within the reported page count. */
  lemma GetOrdersServedByStore(page: Option<int>, pageSize: Option<int>, search: string, docs: seq<Store.Snapshot<Order>>)
    ensures var service := (p: int, ps: int, s: string) => GetOrders(Store.Scan(docs, None), p, ps, s);
      var r := HandleGetOrders(page, pageSize, search, service);
      && r.reply.status == StatusOK
      && r.reply.body.Success?
      && (|r.reply.body.data.items| > 0 <==>
          r.reply.body.data.pagination.currentPage <= r.reply.body.data.pagination.totalPages)
  {
    var service := (p: int, ps: int, s: string) => GetOrders(Store.Scan(docs, None), p, ps, s);
    var (p, ps) := GetPaginationParams(page, pageSize);
    var kept := Store.Filter(Store.Records(docs), (o: Order) => Keep(o, search));
    assert service(p, ps, search) == ListWindow(kept, p, ps);
    WindowNonEmptyIff(kept, p, ps);
  }
}

=== FILE: orders.dfy ===
/** The Firestore-backed order service (`order/firestore.go`, records from
    `order/order.go`): creation with a computed total, the partial update that
    derives time-stamp writes from flag changes, and the admin list. */
module Orders {
  import opened Wrappers
  import opened Pagination
  import opened Search
  import opened Store
  import Decimal

  datatype LineItem = LineItem(name: string, count: int, price: int)

  datatype Order = Order(
    id: string,
    products: seq<LineItem>,
    name: string,
    mail: string,
    note: string,
    totalPrice: int,
    isPaid: bool,
    isPicked: bool,
    isEnabled: bool,
    paidAt: string,
    pickedAt: string,
    createdAt: string)

  datatype CreateOrderRequest = CreateOrderRequest(mail: string, name: string, products: seq<LineItem>)

  /** A value of the update payload as `encoding/json` decodes it into an
      `interface{}`. Numbers, which Go decodes as `float64`, are abstracted
      as text. */
  datatype Value =
    | Null
    | Bool(b: bool)
    | Number(literal: string)
    | Text(s: string)
    | Array(items: seq<Value>)
    | Object(fields: map<string, Value>)

  /** The decoded update body: field path to new value. */
  type Payload = map<string, Value>

  /** One `firestore.Update{Path, Value}`. */
  datatype FieldUpdate = FieldUpdate(path: string, value: Value)

  const PaidKey: string := "is_paid"
  const PickedKey: string := "is_picked"
  const EnabledKey: string := "is_enabled"
  const PaidAtPath: string := "paid_at"
  const PickedAtPath: string := "picked_at"
  const DisabledAtPath: string := "disabled_at"

  /** The unix time, in seconds, as the decimal text every stamp field holds. */
  function Stamp(now: int): string {
    Decimal.FormatInt(now)
  }

  // ---------------------------------------------------------------- creation

  /** Sum of price times count over the line items, left to right. */
  function Total(items: seq<LineItem>): (t: int)
    ensures (forall i :: 0 <= i < |items| ==> items[i].count >= 1 && items[i].price >= 1) ==> t >= |items|
    ensures (forall i :: 0 <= i < |items| ==> items[i].count >= 0 && items[i].price >= 0) ==> t >= 0
    decreases |items|
  {
    if |items| == 0 then 0
    else
      var head := items[0];
      assert head.count >= 1 && head.price >= 1 ==> head.price * head.count >= 1;
      assert head.count >= 0 && head.price >= 0 ==> head.price * head.count >= 0;
      head.price * head.count + Total(items[1..])
  }

  /** The total of a concatenation is the sum of the totals: the running sum
      of the creation loop. */
  lemma {:induction false} TotalAppend(a: seq<LineItem>, b: seq<LineItem>)
    ensures Total(a + b) == Total(a) + Total(b)
    decreases |a|
  {
    if |a| == 0 {
      assert a + b == b;
    } else {
      assert (a + b)[1..] == a[1..] + b;
      TotalAppend(a[1..], b);
    }
  }

  lemma TotalExample()
    ensures Total([LineItem("A", 2, 50), LineItem("B", 1, 30)]) == 130
  {
    var items := [LineItem("A", 2, 50), LineItem("B", 1, 30)];
    assert items[1..] == [LineItem("B", 1, 30)];
    assert items[1..][1..] == [];
  }

  /** `CreateOrder`: the order written under the new document's id and, when
      the store accepts it, returned as is. */
  function CreateOrder(req: CreateOrderRequest, newId: string, now: int, fault: Option<Error>): (r: Saved<Order>)
    ensures r.write.Set? && r.write.id == newId
    ensures var o := r.write.doc;
      && o.id == newId && o.name == req.name && o.mail == req.mail && o.products == req.products
      && o.isEnabled && !o.isPaid && !o.isPicked
      && o.paidAt == "" && o.pickedAt == "" && o.note == ""
      && Decimal.ParseInt(o.createdAt) == Some(now)
      && o.totalPrice == Total(req.products)
    ensures r.reply.Ok? <==> fault.None?
    ensures r.reply.Ok? ==> r.reply.value == r.write.doc
  {
    var o := Order(newId, req.products, req.name, req.mail, "", Total(req.products),
                   false, false, true, "", "", Stamp(now));
    Decimal.ParseFormatInt(now);
    SetDoc(newId, o, o, fault)
  }

  // ---------------------------------------------------------- partial update

  /** A `paid_at` stamp is derived iff the payload sets `is_paid` to boolean
      true and the order read before the update was not paid. */
  predicate StampsPaid(orig: Order, data: Payload) {
    PaidKey in data && data[PaidKey] == Bool(true) && !orig.isPaid
  }

  predicate StampsPicked(orig: Order, data: Payload) {
    PickedKey in data && data[PickedKey] == Bool(true) && !orig.isPicked
  }

  /** No guard on the stored flag: every boolean false for `is_enabled` stamps. */
  predicate StampsDisabled(data: Payload) {
    EnabledKey in data && data[EnabledKey] == Bool(false)
  }

  function Echo(data: Payload): set<FieldUpdate> {
    set k | k in data :: FieldUpdate(k, data[k])
  }

  function DerivedIf(cond: bool, path: string, stamp: string): multiset<FieldUpdate> {
    if cond then multiset{FieldUpdate(path, Text(stamp))} else multiset{}
  }

  /** The update slice `UpdateOrder` builds, up to the order in which Go
      iterates the payload map: every pair echoed, plus the derived stamps. */
  function UpdateWrites(orig: Order, data: Payload, stamp: string): (w: multiset<FieldUpdate>)
    ensures forall k :: k in data ==> FieldUpdate(k, data[k]) in w
    ensures StampsPaid(orig, data) ==> FieldUpdate(PaidAtPath, Text(stamp)) in w
    ensures StampsPicked(orig, data) ==> FieldUpdate(PickedAtPath, Text(stamp)) in w
    ensures StampsDisabled(data) ==> FieldUpdate(DisabledAtPath, Text(stamp)) in w
    ensures forall u :: u in w ==>
      || (u.path in data && u.value == data[u.path])
      || (u == FieldUpdate(PaidAtPath, Text(stamp)) && StampsPaid(orig, data))
      || (u == FieldUpdate(PickedAtPath, Text(stamp)) && StampsPicked(orig, data))
      || (u == FieldUpdate(DisabledAtPath, Text(stamp)) && StampsDisabled(data))
  {
    multiset(Echo(data))
      + DerivedIf(StampsPaid(orig, data), PaidAtPath, stamp)
      + DerivedIf(StampsPicked(orig, data), PickedAtPath, stamp)
      + DerivedIf(StampsDisabled(data), DisabledAtPath, stamp)
  }

  /** True iff some write of `w` targets `path`. */
  predicate Writes(w: multiset<FieldUpdate>, path: string) {
    exists u :: u in w && u.path == path
  }

  /** For a payload that does not name the stamp field itself, a stamp write
      is present exactly when its guard holds. */
  lemma StampWrittenIff(orig: Order, data: Payload, stamp: string)
    requires PaidAtPath !in data && PickedAtPath !in data && DisabledAtPath !in data
    ensures Writes(UpdateWrites(orig, data, stamp), PaidAtPath) <==> StampsPaid(orig, data)
    ensures Writes(UpdateWrites(orig, data, stamp), PickedAtPath) <==> StampsPicked(orig, data)
    ensures Writes(UpdateWrites(orig, data, stamp), DisabledAtPath) <==> StampsDisabled(data)
  {
    var w := UpdateWrites(orig, data, stamp);
    if StampsPaid(orig, data) {
      assert FieldUpdate(PaidAtPath, Text(stamp)) in w;
    }
    if StampsPicked(orig, data) {
      assert FieldUpdate(PickedAtPath, Text(stamp)) in w;
    }
    if StampsDisabled(data) {
      assert FieldUpdate(DisabledAtPath, Text(stamp)) in w;
    }
  }

  /** The guards read only the pre-update flags `IsPaid` and `IsPicked`: two
      snapshots that agree on them yield the same writes. */
  lemma WritesDependOnlyOnPriorFlags(o1: Order, o2: Order, data: Payload, stamp: string)
    requires o1.isPaid == o2.isPaid && o1.isPicked == o2.isPicked
    ensures UpdateWrites(o1, data, stamp) == UpdateWrites(o2, data, stamp)
  {
  }

  /** The disable stamp ignores the stored flag: an already disabled order is
      stamped again. */
  lemma DisableAlwaysStamps(orig: Order, data: Payload, stamp: string)
    requires StampsDisabled(data)
    ensures FieldUpdate(DisabledAtPath, Text(stamp)) in UpdateWrites(orig, data, stamp)
    ensures FieldUpdate(DisabledAtPath, Text(stamp)) in UpdateWrites(orig.(isEnabled := false), data, stamp)
  {
  }

  /** A non-boolean value under `is_paid` is echoed but derives nothing. */
  lemma NonBooleanFlagOnlyEchoed(orig: Order, v: Value, stamp: string)
    requires !v.Bool?
    ensures UpdateWrites(orig, map[PaidKey := v], stamp) == multiset{FieldUpdate(PaidKey, v)}
  {
    var data := map[PaidKey := v];
    assert data.Keys == {PaidKey};
    forall u | u in Echo(data)
      ensures u == FieldUpdate(PaidKey, v)
    {
    }
    assert FieldUpdate(PaidKey, v) in Echo(data);
    assert Echo(data) == {FieldUpdate(PaidKey, v)};
    assert |PickedKey| != |PaidKey| && |EnabledKey| != |PaidKey|;
    assert !StampsPaid(orig, data) && !StampsPicked(orig, data) && !StampsDisabled(data);
  }

  /** The outcome of `UpdateOrder`: the writes issued (none when the first read
      failed) and the reply. */
  datatype UpdateOutcome = UpdateOutcome(issued: Option<multiset<FieldUpdate>>, reply: Result<Order>)

  /** `UpdateOrder`: read, derive the writes from that snapshot, write, and
      return what a second read decodes. `read`, `fault` and `reread` are the
      store's answers to the three calls. */
  function UpdateOrder(read: Result<Snapshot<Order>>, data: Payload, now: int,
                       fault: Option<Error>, reread: Result<Snapshot<Order>>): (r: UpdateOutcome)
    ensures read.Err? ==> r.issued.None? && r.reply == Err(read.error)
    ensures read.Ok? ==> r.issued == Some(UpdateWrites(read.value.data, data, Stamp(now)))
    ensures read.Ok? && fault.Some? ==> r.reply == Err(fault.value)
    ensures read.Ok? && fault.None? && reread.Ok? ==> r.reply == Ok(reread.value.data)
    ensures read.Ok? && fault.None? && reread.Err? ==> r.reply == Err(reread.error)
  {
    match read
    case Err(e) => UpdateOutcome(None, Err(e))
    case Ok(snap) =>
      var writes := UpdateWrites(snap.data, data, Stamp(now));
      match fault
      case Some(e) => UpdateOutcome(Some(writes), Err(e))
      case None => UpdateOutcome(Some(writes), ReadLenient(reread))
  }

  // ------------------------------------------ the order a successful update leaves

  /** The Firestore field names of the order record (`order/order.go`). */
  const RecordFields: set<string> :=
    {"id", "products", "name", "mail", "note", "total_price",
     "is_paid", "is_picked", "is_enabled", "paid_at", "picked_at", "created_at"}

  /** The payloads the flag model below covers: flag values are booleans and
      the only record fields named are the three flags. Other keys become
      document fields the record does not decode, so they leave it as it is. */
  predicate FlagPayload(data: Payload) {
    && (PaidKey in data ==> data[PaidKey].Bool?)
    && (PickedKey in data ==> data[PickedKey].Bool?)
    && (EnabledKey in data ==> data[EnabledKey].Bool?)
    && PaidAtPath !in data && PickedAtPath !in data
    && forall k :: k in data && k in RecordFields ==> k == PaidKey || k == PickedKey || k == EnabledKey
  }

  function FlagAfter(data: Payload, key: string, prior: bool): bool
    requires key in data ==> data[key].Bool?
  {
    if key in data then data[key].b else prior
  }

  /** The order as re-read after the writes of `UpdateWrites` have been applied
      field by field. The record has no `disabled_at` field, so that stamp is
      not visible in it. */
  function Applied(o: Order, data: Payload, stamp: string): (a: Order)
    requires FlagPayload(data)
    ensures a.id == o.id && a.products == o.products && a.totalPrice == o.totalPrice
    ensures a.name == o.name && a.mail == o.mail && a.createdAt == o.createdAt
  {
    o.(isPaid := FlagAfter(data, PaidKey, o.isPaid),
       isPicked := FlagAfter(data, PickedKey, o.isPicked),
       isEnabled := FlagAfter(data, EnabledKey, o.isEnabled),
       paidAt := if StampsPaid(o, data) then stamp else o.paidAt,
       pickedAt := if StampsPicked(o, data) then stamp else o.pickedAt)
  }

  /** Every record field `Applied` changes is one that `UpdateWrites` writes,
      with the value written. */
  lemma AppliedFollowsWrites(o: Order, data: Payload, stamp: string)
    requires FlagPayload(data)
    ensures var a := Applied(o, data, stamp); var w := UpdateWrites(o, data, stamp);
      && (a.isPaid != o.isPaid ==> FieldUpdate(PaidKey, Bool(a.isPaid)) in w)
      && (a.isPicked != o.isPicked ==> FieldUpdate(PickedKey, Bool(a.isPicked)) in w)
      && (a.isEnabled != o.isEnabled ==> FieldUpdate(EnabledKey, Bool(a.isEnabled)) in w)
      && (a.paidAt != o.paidAt ==> FieldUpdate(PaidAtPath, Text(a.paidAt)) in w)
      && (a.pickedAt != o.pickedAt ==> FieldUpdate(PickedAtPath, Text(a.pickedAt)) in w)
  {
  }

  /** Repeating an update whose `is_paid` / `is_picked`, where present, are
      true derives no further stamp and changes neither stamp. */
  lemma RepeatedTrueUpdateAddsNoStamp(o: Order, data: Payload, s1: string, s2: string)
    requires FlagPayload(data)
    requires PaidKey in data ==> data[PaidKey] == Bool(true)
    requires PickedKey in data ==> data[PickedKey] == Bool(true)
    ensures var once := Applied(o, data, s1);
      && !StampsPaid(once, data) && !StampsPicked(once, data)
      && Applied(once, data, s2).paidAt == once.paidAt
      && Applied(once, data, s2).pickedAt == once.pickedAt
  {
  }

  /** Setting a flag to false never clears its stamp. */
  lemma FalseNeverClearsStamp(o: Order, data: Payload, stamp: string)
    requires FlagPayload(data)
    requires PaidKey in data && data[PaidKey] == Bool(false)
    ensures Applied(o, data, stamp).paidAt == o.paidAt && !Applied(o, data, stamp).isPaid
  {
  }

  /** `paid_at` is not write-once: paid, then unpaid, then paid again stamps
      it a second time with the later time. */
  lemma PaidAtIsRestamped(o: Order, s1: string, s2: string, s3: string)
    requires !o.isPaid
    ensures var pay := map[PaidKey := Bool(true)];
      var unpay := map[PaidKey := Bool(false)];
      var first := Applied(o, pay, s1);
      var second := Applied(Applied(first, unpay, s2), pay, s3);
      first.paidAt == s1 && second.paidAt == s3
  {
  }

  // ---------------------------------------------------------------- listing

  predicate Keep(o: Order, search: string) {
    OrderTextMatches(o.name, o.mail, search)
  }

  /** `GetOrders`: every order is read (decoding errors ignored); a non-empty
      search keeps the orders whose name or mail contains it; then the page
      window, with the filtered count. */
  function GetOrders(scan: Scan<Order>, page: int, pageSize: int, search: string): (r: Result<Listing<Order>>)
    ensures scan.fault.Some? ==> r == Err(scan.fault.value)
    ensures r.Ok? ==> forall i :: 0 <= i < |r.value.items| ==>
      search == "" || Text.Contains(r.value.items[i].name, search) || Text.Contains(r.value.items[i].mail, search)
    ensures r.Ok? ==> r.value.totalCount == |Filter(Records(scan.docs), (o: Order) => Keep(o, search))|
    ensures scan.fault.None? ==> r == ListWindow(Filter(Records(scan.docs), (o: Order) => Keep(o, search)), page, pageSize)
    ensures r.Ok? && r.value.totalCount < Start(page, pageSize) ==> r.value.items == []
    ensures scan.fault.None? && page >= 1 && pageSize >= 0 ==> r.Ok?
  {
    ScanList(scan, (o: Order) => Keep(o, search), page, pageSize)
  }

  /** An empty search keeps every order. */
  lemma GetOrdersEmptySearch(scan: Scan<Order>, page: int, pageSize: int)
    requires GetOrders(scan, page, pageSize, "").Ok?
    ensures GetOrders(scan, page, pageSize, "").value.totalCount == |scan.docs|
  {
    ScanListAll(scan, (o: Order) => Keep(o, ""), page, pageSize);
  }
}

=== FILE: pagination.dfy ===
/** Page metadata (`pkg/pagination`) and the page window that every list
    operation of the services cuts out of its filtered result. The window code
    is copy-pasted in each service; here it is written once, generically. */
module Pagination {
  import opened Wrappers

  const DefaultPage: int := 1
  const DefaultPageSize: int := 10

  /** Page metadata returned beside every paginated list. */
  datatype Pagination = Pagination(totalPages: int, totalCount: int, currentPage: int, pageSize: int)

  /** One page of a filtered list, with the size of the whole filtered list. */
  datatype Listing<T> = Listing(items: seq<T>, totalCount: int)

  function Min(a: int, b: int): int {
    if a < b then a else b
  }

  /** The ceiling of the exact quotient `a / b`, which is what
      `math.Ceil(float64(a) / float64(b))` computes (floating-point rounding aside). */
  function CeilDiv(a: int, b: int): (q: int)
    requires b > 0
    ensures (q - 1) * b < a <= q * b
  {
    var f := (-a) / b;
    assert f * b <= -a < (f + 1) * b;
    -f
  }

  /** `pagination.New`: normalises the page and page size and counts pages. */
  function New(currentPage: int, pageSize: int, totalCount: int): (p: Pagination)
    ensures p.currentPage >= 1 && p.pageSize >= 1
    ensures currentPage > 0 ==> p.currentPage == currentPage
    ensures currentPage <= 0 ==> p.currentPage == DefaultPage
    ensures pageSize > 0 ==> p.pageSize == pageSize
    ensures pageSize <= 0 ==> p.pageSize == DefaultPageSize
    ensures p.totalCount == totalCount
    ensures (p.totalPages - 1) * p.pageSize < totalCount <= p.totalPages * p.pageSize
    ensures totalCount == 0 ==> p.totalPages == 0
  {
    var page := if currentPage <= 0 then DefaultPage else currentPage;
    var size := if pageSize <= 0 then DefaultPageSize else pageSize;
    Pagination(CeilDiv(totalCount, size), totalCount, page, size)
  }

  lemma NewExamples()
    ensures New(1, 10, 25).totalPages == 3
    ensures New(0, 0, 25) == Pagination(3, 25, 1, 10)
    ensures New(99, 10, 5) == Pagination(1, 5, 99, 10)
  {
  }

  /** `GetPaginationParams`: each argument is what `strconv.Atoi` made of the
      query parameter (`None` when it failed to parse). */
  function GetPaginationParams(page: Option<int>, pageSize: Option<int>): (r: (int, int))
    ensures r.0 >= 1 && r.1 >= 1
    ensures r.0 == (if page.Some? && page.value > 0 then page.value else DefaultPage)
    ensures r.1 == (if pageSize.Some? && pageSize.value > 0 then pageSize.value else DefaultPageSize)
  {
    var p := match page
      case Some(v) => if v <= 0 then DefaultPage else v
      case None => DefaultPage;
    var s := match pageSize
      case Some(v) => if v <= 0 then DefaultPageSize else v
      case None => DefaultPageSize;
    (p, s)
  }

  /** Normalised parameters are left unchanged by `New`, so the metadata a
      handler reports describes the page its service cut. */
  lemma NewEchoesParams(page: Option<int>, pageSize: Option<int>, totalCount: int)
    ensures var (p, s) := GetPaginationParams(page, pageSize);
      New(p, s, totalCount).currentPage == p && New(p, s, totalCount).pageSize == s
  {
  }

  /** First index of page `page`. */
  function Start(page: int, pageSize: int): int {
    (page - 1) * pageSize
  }

  /** The window code of the list operations:
      `start := (page-1)*pageSize; end := start+pageSize`,
      empty when `start > n`, otherwise `items[start:min(end, n)]`.
      Go panics when the slice bounds are out of order (a non-positive page
      or a negative page size); that is `Err(SlicePanic)`. */
  function Window<T>(items: seq<T>, page: int, pageSize: int): (r: Result<seq<T>>)
    ensures r.Err? <==> (Start(page, pageSize) <= |items| && (Start(page, pageSize) < 0 || pageSize < 0))
    ensures r.Err? ==> r.error == SlicePanic
    ensures r.Ok? && pageSize >= 0 ==> |r.value| <= pageSize
    ensures r.Ok? && pageSize < 0 ==> r.value == []
    ensures r.Ok? && Start(page, pageSize) >= |items| ==> r.value == []
    ensures r.Ok? && Start(page, pageSize) < |items| ==>
      |r.value| == Min(pageSize, |items| - Start(page, pageSize))
    ensures r.Ok? ==> forall i :: 0 <= i < |r.value| ==> r.value[i] == items[Start(page, pageSize) + i]
  {
    var n := |items|;
    var start := (page - 1) * pageSize;
    var end := start + pageSize;
    if start > n then Ok([])
    else
      var end' := if end > n then n else end;
      if 0 <= start <= end' then Ok(items[start..end']) else Err(SlicePanic)
  }

  /** The list result: the window of the filtered list and the filtered count. */
  function ListWindow<T>(filtered: seq<T>, page: int, pageSize: int): (r: Result<Listing<T>>)
    ensures r.Ok? <==> Window(filtered, page, pageSize).Ok?
    ensures r.Ok? ==> r.value == Listing(Window(filtered, page, pageSize).value, |filtered|)
    ensures r.Err? ==> r.error == SlicePanic
  {
    var w :- Window(filtered, page, pageSize);
    Ok(Listing(w, |filtered|))
  }

  /** Parameters that went through `GetPaginationParams` never make the window panic. */
  lemma NormalisedWindowNeverPanics<T>(items: seq<T>, page: Option<int>, pageSize: Option<int>)
    ensures var (p, s) := GetPaginationParams(page, pageSize);
      Window(items, p, s).Ok?
  {
    var (p, s) := GetPaginationParams(page, pageSize);
    assert Start(p, s) >= 0;
  }

  lemma MulMonotone(a: int, b: int, c: int)
    requires a <= b && c >= 0
    ensures a * c <= b * c
  {
  }

  /** A page window is non-empty exactly when the page number is at most the
      page count that `New` reports for the same list. */
  lemma WindowNonEmptyIff<T>(items: seq<T>, page: int, pageSize: int)
    requires page >= 1 && pageSize >= 1
    ensures Window(items, page, pageSize).Ok?
    ensures Window(items, page, pageSize).value != [] <==>
      page <= New(page, pageSize, |items|).totalPages
  {
    var tp := New(page, pageSize, |items|).totalPages;
    var start := Start(page, pageSize);
    MulMonotone(0, page - 1, pageSize);
    assert Window(items, page, pageSize).value != [] <==> start < |items|;
    if page <= tp {
      MulMonotone(page - 1, tp - 1, pageSize);
    } else {
      MulMonotone(tp, page - 1, pageSize);
    }
  }

  /** The pages from `page` onwards, concatenated. */
  function PagesFrom<T>(items: seq<T>, page: int, pageSize: int): seq<T>
    requires page >= 1 && pageSize >= 1
    decreases |items| - Start(page, pageSize)
  {
    if Start(page, pageSize) >= |items| then []
    else Window(items, page, pageSize).value + PagesFrom(items, page + 1, pageSize)
  }

  /** Walking the pages from 1 upwards yields every item once, in order. */
  lemma {:induction false} PagesFromCover<T>(items: seq<T>, page: int, pageSize: int)
    requires page >= 1 && pageSize >= 1
    ensures PagesFrom(items, page, pageSize) == items[Min(Start(page, pageSize), |items|)..]
    decreases |items| - Start(page, pageSize)
  {
    var start := Start(page, pageSize);
    if start < |items| {
      assert Start(page + 1, pageSize) == start + pageSize;
      PagesFromCover(items, page + 1, pageSize);
      var w := Window(items, page, pageSize).value;
      assert w == items[start..start + |w|];
      assert items[start..] == w + items[start + |w|..];
    }
  }

  lemma PagesCoverAll<T>(items: seq<T>, pageSize: int)
    requires pageSize >= 1
    ensures PagesFrom(items, 1, pageSize) == items
  {
    PagesFromCover(items, 1, pageSize);
  }
}

=== FILE: product_memory.dfy ===
/** The in-memory product service (`InMemoryService` in `product/product.go`):
    a map from id to product and a counter that supplies the next id.

    The service is an immutable value; every operation returns the new value
    together with what the Go method returns. */
module ProductMemory {
  import opened Wrappers
  import opened Pagination
  import opened Text
  import Decimal
  import Products

  type Product = Products.Product

  datatype InMemoryService = InMemoryService(products: map<string, Product>, nextProductID: int)

  /** The service invariant: the counter is positive, every key is the
      decimal form of a number in [1, nextProductID), and every product is
      stored under its own id. */
  predicate Valid(s: InMemoryService) {
    && s.nextProductID >= 1
    && forall k :: k in s.products ==>
         && Decimal.ParseNat(k).Some?
         && 1 <= Decimal.ParseNat(k).value < s.nextProductID
         && s.products[k].id == k
  }

  /** `NewInMemoryService`: empty, counting from 1. */
  function NewInMemoryService(): (s: InMemoryService)
    ensures Valid(s) && |s.products| == 0 && s.nextProductID == 1
  {
    InMemoryService(map[], 1)
  }

  /** `fmt.Sprintf("%d", n)`. */
  function IdOf(n: int): string {
    Decimal.FormatInt(n)
  }

  lemma IdOfParses(n: int)
    requires n >= 0
    ensures Decimal.ParseNat(IdOf(n)) == Some(n)
  {
    Decimal.ParseFormatNat(n);
  }

  /** In a valid service the counter's decimal form parses back to it. */
  lemma CounterIdParses(s: InMemoryService)
    ensures Valid(s) ==> Decimal.ParseNat(IdOf(s.nextProductID)) == Some(s.nextProductID)
  {
    if Valid(s) {
      IdOfParses(s.nextProductID);
    }
  }

  /** `CreateProduct`: the payload's id is discarded and replaced by the
      decimal form of the counter, which then grows by exactly one. The new id
      is never one already in use. */
  function CreateProduct(s: InMemoryService, p: Product): (r: (InMemoryService, Product))
    ensures r.1.(id := p.id) == p
    ensures Decimal.ParseInt(r.1.id) == Some(s.nextProductID)
    ensures r.0.nextProductID == s.nextProductID + 1
    ensures r.0.products == s.products[r.1.id := r.1]
    ensures Valid(s) ==> r.1.id !in s.products && Valid(r.0)
  {
    var created := p.(id := IdOf(s.nextProductID));
    Decimal.ParseFormatInt(s.nextProductID);
    CounterIdParses(s);
    (InMemoryService(s.products[created.id := created], s.nextProductID + 1), created)
  }

  /** `GetProduct`: an error exactly when the id is absent. */
  function GetProduct(s: InMemoryService, id: string): (r: Result<Product>)
    ensures r.Ok? <==> id in s.products
    ensures r.Ok? ==> r.value == s.products[id]
    ensures r.Err? ==> r.error == NotFound
  {
    if id in s.products then Ok(s.products[id]) else Err(NotFound)
  }

  /** `UpdateProduct`: an absent id is an error and changes nothing; otherwise
      the product is stored under `id` with its id forced to `id`, every other
      entry and the counter untouched. */
  function UpdateProduct(s: InMemoryService, id: string, p: Product): (r: (InMemoryService, Result<Product>))
    ensures id !in s.products ==> r == (s, Err(NotFound))
    ensures id in s.products ==> r.1 == Ok(p.(id := id))
    ensures r.0.nextProductID == s.nextProductID
    ensures r.0.products.Keys == s.products.Keys
    ensures forall k :: k in s.products && k != id ==> r.0.products[k] == s.products[k]
    ensures id in s.products ==> r.0.products[id].id == id && r.0.products[id].(id := p.id) == p
    ensures Valid(s) ==> Valid(r.0)
  {
    if id !in s.products then (s, Err(NotFound))
    else
      var stored := p.(id := id);
      (s.(products := s.products[id := stored]), Ok(stored))
  }

  /** `DeleteProduct`: an absent id is an error and changes nothing; otherwise
      exactly that key is removed and the counter is left as it was. */
  function DeleteProduct(s: InMemoryService, id: string): (r: (InMemoryService, Option<Error>))
    ensures id !in s.products ==> r == (s, Some(NotFound))
    ensures id in s.products ==> r.1.None? && r.0.products == s.products - {id}
    ensures r.0.nextProductID == s.nextProductID
    ensures Valid(s) ==> Valid(r.0)
  {
    if id !in s.products then (s, Some(NotFound))
    else (s.(products := s.products - {id}), None)
  }

  lemma GetAfterCreate(s: InMemoryService, p: Product, id: string)
    requires Valid(s)
    ensures var (t, created) := CreateProduct(s, p);
      && GetProduct(t, created.id) == Ok(created)
      && (id != created.id ==> GetProduct(t, id) == GetProduct(s, id))
  {
  }

  lemma GetAfterUpdate(s: InMemoryService, id: string, p: Product, other: string)
    requires id in s.products && other != id
    ensures GetProduct(UpdateProduct(s, id, p).0, id) == Ok(p.(id := id))
    ensures GetProduct(UpdateProduct(s, id, p).0, other) == GetProduct(s, other)
  {
  }

  lemma GetAfterDelete(s: InMemoryService, id: string, other: string)
    requires other != id
    ensures GetProduct(DeleteProduct(s, id).0, id) == Err(NotFound)
    ensures GetProduct(DeleteProduct(s, id).0, other) == GetProduct(s, other)
  {
  }

  // ------------------------------------------------------------ histories

  datatype Op = Create(product: Product) | Update(id: string, product: Product) | Delete(id: string)

  function Step(s: InMemoryService, op: Op): InMemoryService {
    match op
    case Create(p) => CreateProduct(s, p).0
    case Update(id, p) => UpdateProduct(s, id, p).0
    case Delete(id) => DeleteProduct(s, id).0
  }

  function Run(s: InMemoryService, ops: seq<Op>): InMemoryService
    decreases |ops|
  {
    if |ops| == 0 then s else Run(Step(s, ops[0]), ops[1..])
  }

  /** Every history keeps the invariant and never lowers the counter. */
  lemma {:induction false} RunKeepsInvariant(s: InMemoryService, ops: seq<Op>)
    requires Valid(s)
    ensures Valid(Run(s, ops)) && Run(s, ops).nextProductID >= s.nextProductID
    decreases |ops|
  {
    if |ops| > 0 {
      RunKeepsInvariant(Step(s, ops[0]), ops[1..]);
    }
  }

  /** An id that was ever handed out, once deleted, is never handed out again,
      whatever happens in between. */
  lemma DeletedIdNeverReused(s: InMemoryService, id: string, ops: seq<Op>, p: Product)
    requires Valid(s) && id in s.products
    ensures CreateProduct(Run(DeleteProduct(s, id).0, ops), p).1.id != id
  {
    var t := Run(DeleteProduct(s, id).0, ops);
    RunKeepsInvariant(DeleteProduct(s, id).0, ops);
    IdOfParses(t.nextProductID);
  }

  // ------------------------------------------------------------- listing

  /** The stored products in the order Go's `range` visited their keys. */
  function Collect(m: map<string, Product>, visit: seq<string>): (r: seq<Product>)
    requires forall i :: 0 <= i < |visit| ==> visit[i] in m
    ensures |r| == |visit|
    ensures forall i :: 0 <= i < |r| ==> r[i] == m[visit[i]]
  {
    seq(|visit|, i requires 0 <= i < |visit| => m[visit[i]])
  }

  /** Ascending by id, in Go's string order. */
  predicate SortedById(ps: seq<Product>) {
    forall i, j :: 0 <= i < j < |ps| ==> LessEq(ps[i].id, ps[j].id)
  }

  /** An id at most the head's id of a sorted list is at most every id in it. */
  lemma BelowHeadBelowAll(id: string, ps: seq<Product>)
    requires |ps| > 0 && SortedById(ps) && LessEq(id, ps[0].id)
    ensures forall j :: 0 <= j < |ps| ==> LessEq(id, ps[j].id)
  {
    forall j | 0 <= j < |ps|
      ensures LessEq(id, ps[j].id)
    {
      if id != ps[0].id && ps[0].id != ps[j].id {
        LessTransitive(id, ps[0].id, ps[j].id);
      }
    }
  }

  /** The elements of `ps[1..]` with `p` added all sort at or after the head
      of `ps` when `p` does. */
  lemma HeadBelowRest(p: Product, ps: seq<Product>, rest: seq<Product>)
    requires |ps| > 0 && SortedById(ps) && LessEq(ps[0].id, p.id)
    requires multiset(rest) == multiset(ps[1..]) + multiset{p}
    ensures forall x :: x in rest ==> LessEq(ps[0].id, x.id)
  {
    forall x | x in rest
      ensures LessEq(ps[0].id, x.id)
    {
      assert x in multiset(rest);
      if x != p {
        assert x in multiset(ps[1..]);
        assert x in ps[1..];
      }
    }
  }

  /** Insert `p` before the first element whose id is not below its own. */
  function Insert(p: Product, ps: seq<Product>): (r: seq<Product>)
    requires SortedById(ps)
    ensures multiset(r) == multiset(ps) + multiset{p}
    ensures SortedById(r)
    decreases |ps|
  {
    if |ps| == 0 then [p]
    else if LessEq(p.id, ps[0].id) then
      BelowHeadBelowAll(p.id, ps);
      [p] + ps
    else
      LessTotal(p.id, ps[0].id);
      var rest := Insert(p, ps[1..]);
      assert ps == [ps[0]] + ps[1..];
      HeadBelowRest(p, ps, rest);
      [ps[0]] + rest
  }

  /** `sort.Slice(productList, ID <)`: a permutation of its input, ascending by id. */
  function SortById(ps: seq<Product>): (r: seq<Product>)
    ensures multiset(r) == multiset(ps)
    ensures SortedById(r)
    decreases |ps|
  {
    if |ps| == 0 then []
    else
      assert ps == [ps[0]] + ps[1..];
      Insert(ps[0], SortById(ps[1..]))
  }

  /** `visit` lists every stored key exactly once, as Go's `range` does. */
  predicate Enumerates(visit: seq<string>, m: map<string, Product>) {
    && AllStored(m, visit)
    && multiset(visit) == multiset(m.Keys)
  }

  lemma EnumeratedKeysAreStored(visit: seq<string>, m: map<string, Product>)
    requires Enumerates(visit, m)
    ensures forall i :: 0 <= i < |visit| ==> visit[i] in m
    ensures |visit| == |m|
  {
    forall i | 0 <= i < |visit|
      ensures visit[i] in m
    {
      assert visit[i] in multiset(visit);
    }
    assert |multiset(visit)| == |visit|;
    assert |multiset(m.Keys)| == |m.Keys|;
  }

  /** `GetProducts`: every stored product, sorted by id, then the page window
      with the number of stored products. `visit` is the order in which the
      map was iterated. */
  function GetProducts(s: InMemoryService, visit: seq<string>, page: int, pageSize: int): (r: Result<Listing<Product>>)
    requires Enumerates(visit, s.products)
    ensures r.Err? <==> Start(page, pageSize) <= |s.products| && (Start(page, pageSize) < 0 || pageSize < 0)
    ensures r.Ok? ==> r.value.totalCount == |s.products|
    ensures r.Ok? ==> SortedById(r.value.items)
    ensures r.Ok? ==> forall i :: 0 <= i < |r.value.items| ==> r.value.items[i] in s.products.Values
    ensures r.Ok? && pageSize >= 0 ==> |r.value.items| <= pageSize
    ensures r.Ok? && Start(page, pageSize) >= |s.products| ==> r.value.items == []
    ensures r.Ok? && Start(page, pageSize) < |s.products| ==>
      |r.value.items| == Min(pageSize, |s.products| - Start(page, pageSize))
    ensures r == ListWindow(SortById(Collect(s.products, visit)), page, pageSize)
  {
    var sorted := SortById(Collect(s.products, visit));
    SortedStored(s, visit);
    var r := ListWindow(sorted, page, pageSize);
    WindowKeepsOrder(sorted, page, pageSize);
    r
  }

  /** The sorted collection holds every stored product once and nothing else. */
  lemma SortedStored(s: InMemoryService, visit: seq<string>)
    requires Enumerates(visit, s.products)
    ensures |SortById(Collect(s.products, visit))| == |s.products|
    ensures forall x :: x in SortById(Collect(s.products, visit)) ==> x in s.products.Values
  {
    EnumeratedKeysAreStored(visit, s.products);
    var sorted := SortById(Collect(s.products, visit));
    forall x | x in sorted
      ensures x in s.products.Values
    {
      assert x in multiset(Collect(s.products, visit));
    }
    assert |sorted| == |multiset(sorted)| == |Collect(s.products, visit)|;
  }

  /** A page of a sorted list is sorted and drawn from it. */
  lemma WindowKeepsOrder(sorted: seq<Product>, page: int, pageSize: int)
    requires SortedById(sorted)
    ensures Window(sorted, page, pageSize).Ok? ==> SortedById(Window(sorted, page, pageSize).value)
    ensures Window(sorted, page, pageSize).Ok? ==>
      forall i :: 0 <= i < |Window(sorted, page, pageSize).value| ==> Window(sorted, page, pageSize).value[i] in sorted
  {
    var w := Window(sorted, page, pageSize);
    if w.Ok? {
      assert forall i :: 0 <= i < |w.value| ==> w.value[i] == sorted[Start(page, pageSize) + i];
    }
  }

  lemma MultisetDropAt<T>(s: seq<T>, j: int)
    requires 0 <= j < |s|
    ensures multiset(s[..j] + s[j + 1..]) == multiset(s) - multiset{s[j]}
  {
    assert s == s[..j] + [s[j]] + s[j + 1..];
  }

  lemma CollectAppend(m: map<string, Product>, a: seq<string>, b: seq<string>)
    requires forall i :: 0 <= i < |a| ==> a[i] in m
    requires forall i :: 0 <= i < |b| ==> b[i] in m
    ensures Collect(m, a + b) == Collect(m, a) + Collect(m, b)
  {
  }

  predicate AllStored(m: map<string, Product>, v: seq<string>) {
    forall i :: 0 <= i < |v| ==> v[i] in m
  }

  /** Taking one key out of the visit order takes its product out of the
      collected multiset. */
  lemma CollectDropAt(m: map<string, Product>, v: seq<string>, j: int, rest: seq<string>)
    requires forall i :: 0 <= i < |v| ==> v[i] in m
    requires 0 <= j < |v| && rest == v[..j] + v[j + 1..]
    ensures AllStored(m, rest)
    ensures multiset(Collect(m, v)) == multiset{m[v[j]]} + multiset(Collect(m, rest))
  {
    var c := Collect(m, v);
    assert AllStored(m, rest) by {
      forall i | 0 <= i < |rest|
        ensures rest[i] in m
      {
        if i < j {
          assert rest[i] == v[i];
        } else {
          assert rest[i] == v[i + 1];
        }
      }
    }
    var d := Collect(m, rest);
    assert d == c[..j] + c[j + 1..] by {
      assert |d| == |c[..j] + c[j + 1..]|;
      forall i | 0 <= i < |d|
        ensures d[i] == (c[..j] + c[j + 1..])[i]
      {
        if i < j {
          assert rest[i] == v[i];
        } else {
          assert rest[i] == v[i + 1];
        }
      }
    }
    MultisetDropAt(c, j);
    assert c[j] in multiset(c);
  }

  lemma PermutedKeysStored(m: map<string, Product>, v1: seq<string>, v2: seq<string>)
    requires forall i :: 0 <= i < |v1| ==> v1[i] in m
    requires multiset(v1) == multiset(v2)
    ensures forall i :: 0 <= i < |v2| ==> v2[i] in m
  {
    forall i | 0 <= i < |v2|
      ensures v2[i] in m
    {
      assert v2[i] in multiset(v2);
      assert v2[i] in v1;
    }
  }

  /** Matching the first key of `v1` in a permutation `v2` of it leaves two
      permutations of each other. */
  lemma MatchHead(v1: seq<string>, v2: seq<string>) returns (j: int)
    requires |v1| > 0 && multiset(v1) == multiset(v2)
    ensures 0 <= j < |v2| && v2[j] == v1[0]
    ensures multiset(v1[1..]) == multiset(v2[..j] + v2[j + 1..])
  {
    assert v1 == [v1[0]] + v1[1..];
    assert v1[0] in multiset(v2);
    assert v1[0] in v2;
    j :| 0 <= j < |v2| && v2[j] == v1[0];
    MultisetDropAt(v2, j);
  }

  /** Collecting in two orders that visit the same keys gives the same products
      up to order. */
  lemma {:induction false} CollectPermutation(m: map<string, Product>, v1: seq<string>, v2: seq<string>)
    requires forall i :: 0 <= i < |v1| ==> v1[i] in m
    requires multiset(v1) == multiset(v2)
    ensures forall i :: 0 <= i < |v2| ==> v2[i] in m
    ensures multiset(Collect(m, v1)) == multiset(Collect(m, v2))
    decreases |v1|
  {
    PermutedKeysStored(m, v1, v2);
    if |v1| == 0 {
      assert |multiset(v2)| == |v2|;
    } else {
      var j := MatchHead(v1, v2);
      var r1, r2 := v1[1..], v2[..j] + v2[j + 1..];
      assert v1[..0] + v1[1..] == r1;
      CollectDropAt(m, v1, 0, r1);
      CollectDropAt(m, v2, j, r2);
      CollectPermutation(m, r1, r2);
    }
  }

  /** The first elements of two id-sorted lists with the same elements are
      equal when equal ids mean equal products. */
  lemma SortedHeadsAgree(a: seq<Product>, b: seq<Product>)
    requires |a| > 0 && SortedById(a) && SortedById(b)
    requires multiset(a) == multiset(b)
    requires forall x, y :: x in a && y in a && x.id == y.id ==> x == y
    ensures |b| > 0 && a[0] == b[0]
  {
    assert a[0] in multiset(b);
    assert b[0] in multiset(a);
    var i :| 0 <= i < |a| && a[i] == b[0];
    var j :| 0 <= j < |b| && b[j] == a[0];
    assert LessEq(a[0].id, b[0].id);
    assert LessEq(b[0].id, a[0].id);
    if a[0].id != b[0].id {
      LessAsymmetric(a[0].id, b[0].id);
      assert false;
    }
  }

  lemma TailsAgreeOnElements(a: seq<Product>, b: seq<Product>)
    requires |a| > 0 && |b| > 0 && a[0] == b[0] && multiset(a) == multiset(b)
    requires SortedById(a) && SortedById(b)
    requires forall x, y :: x in a && y in a && x.id == y.id ==> x == y
    ensures multiset(a[1..]) == multiset(b[1..])
    ensures SortedById(a[1..]) && SortedById(b[1..])
    ensures forall x, y :: x in a[1..] && y in a[1..] && x.id == y.id ==> x == y
  {
    MultisetDropAt(a, 0);
    MultisetDropAt(b, 0);
    assert a[..0] + a[1..] == a[1..];
    assert b[..0] + b[1..] == b[1..];
  }

  /** Two id-sorted lists with the same elements are equal when equal ids mean
      equal products. */
  lemma {:induction false} SortedUnique(a: seq<Product>, b: seq<Product>)
    requires SortedById(a) && SortedById(b)
    requires multiset(a) == multiset(b)
    requires forall x, y :: x in a && y in a && x.id == y.id ==> x == y
    ensures a == b
    decreases |a|
  {
    if |a| == 0 {
      assert |multiset(b)| == |b|;
    } else {
      SortedHeadsAgree(a, b);
      TailsAgreeOnElements(a, b);
      SortedUnique(a[1..], b[1..]);
      assert a == [a[0]] + a[1..] && b == [b[0]] + b[1..];
    }
  }

  /** Every product is stored under its own id. */
  predicate OwnIds(m: map<string, Product>) {
    forall k :: k in m ==> m[k].id == k
  }

  /** A rearrangement of products collected from a map that stores every
      product under its own id holds no two products with the same id. */
  lemma CollectedIdsUnique(m: map<string, Product>, v: seq<string>, a: seq<Product>)
    requires OwnIds(m) && AllStored(m, v)
    requires multiset(a) == multiset(Collect(m, v))
    ensures forall x, y :: x in a && y in a && x.id == y.id ==> x == y
  {
    forall x | x in a
      ensures x.id in m && m[x.id] == x
    {
      assert x in multiset(Collect(m, v));
    }
  }

  /** The sorted collections of two visiting orders of the same keys agree
      when every product is stored under its own id. */
  lemma SortedCollectionsAgree(m: map<string, Product>, v1: seq<string>, v2: seq<string>)
    requires OwnIds(m) && AllStored(m, v1)
    requires multiset(v1) == multiset(v2)
    ensures AllStored(m, v2)
    ensures SortById(Collect(m, v1)) == SortById(Collect(m, v2))
  {
    CollectPermutation(m, v1, v2);
    var a := SortById(Collect(m, v1));
    var b := SortById(Collect(m, v2));
    CollectedIdsUnique(m, v1, a);
    SortedUnique(a, b);
  }

  /** Sorting by id makes the listing independent of the map's iteration
      order: any two orders give the same pages. */
  lemma ListingIgnoresVisitOrder(s: InMemoryService, v1: seq<string>, v2: seq<string>, page: int, pageSize: int)
    requires Valid(s)
    requires Enumerates(v1, s.products) && Enumerates(v2, s.products)
    ensures GetProducts(s, v1, page, pageSize) == GetProducts(s, v2, page, pageSize)
  {
    EnumeratedKeysAreStored(v1, s.products);
    EnumeratedKeysAreStored(v2, s.products);
    assert OwnIds(s.products);
    SortedCollectionsAgree(s.products, v1, v2);
  }

  /** Ids are compared as strings, so "10" sorts before "2". */
  lemma IdsSortAsStrings(p: Product)
    ensures Less("10", "2")
    ensures SortById([p.(id := "2"), p.(id := "10")]) == [p.(id := "10"), p.(id := "2")]
  {
    var p2 := p.(id := "2");
    var p10 := p.(id := "10");
    var c := [p2, p10];
    assert c[1..] == [p10];
    assert Less("10", "2");
    assert !LessEq("2", "10");
    assert SortById(c[1..][1..]) == [];
    assert SortById(c[1..]) == [p10];
    assert Insert(p2, [p10]) == [p10] + Insert(p2, []);
  }
}

=== FILE: products.dfy ===
/** The Firestore-backed product service (`product/firestore.go`). */
module Products {
  import opened Wrappers
  import opened Pagination
  import opened Search
  import opened Store

  /** The `int32` price fields of the Go record. */
  newtype Int32 = x: int | -0x8000_0000 <= x < 0x8000_0000

  datatype Product = Product(
    id: string,
    name: string,
    price: Int32,
    originPrice: Int32,
    unit: string,
    description: string,
    content: string,
    isEnabled: bool,
    imageUrl: string)

  /** The list filter: the store-side name range, or everything for an empty search. */
  predicate Keep(p: Product, search: string) {
    NameMatches(p.name, search)
  }

  /** `AdminCreateProduct`: the payload's id is replaced by the new document's
      id before the write, so the stored and the returned record agree. */
  function AdminCreateProduct(newId: string, p: Product, fault: Option<Error>): (r: Saved<Product>)
    ensures r.write.Set? && r.write.id == newId
    ensures r.write.doc.id == newId && r.write.doc.(id := p.id) == p
    ensures r.reply.Ok? <==> fault.None?
    ensures r.reply.Ok? ==> r.reply.value == r.write.doc
  {
    var stamped := p.(id := newId);
    SetDoc(newId, stamped, stamped, fault)
  }

  /** `AdminGetProducts`: name-range filter (only for a non-empty search), then
      the page window over the filtered list. */
  function AdminGetProducts(scan: Scan<Product>, page: int, pageSize: int, search: string): (r: Result<Listing<Product>>)
    ensures scan.fault.Some? ==> r == Err(scan.fault.value)
    ensures r.Ok? ==> forall i :: 0 <= i < |r.value.items| ==> Keep(r.value.items[i], search)
    ensures r.Ok? ==> r.value.totalCount == |Filter(Records(scan.docs), (p: Product) => Keep(p, search))|
    ensures r.Ok? && r.value.totalCount < Start(page, pageSize) ==> r.value.items == []
    ensures scan.fault.None? ==> r == ListWindow(Filter(Records(scan.docs), (p: Product) => Keep(p, search)), page, pageSize)
    ensures scan.fault.None? && page >= 1 && pageSize >= 0 ==> r.Ok?
  {
    ScanList(scan, (p: Product) => Keep(p, search), page, pageSize)
  }

  /** An empty search lists from the whole collection. */
  lemma AdminGetProductsEmptySearch(scan: Scan<Product>, page: int, pageSize: int)
    requires AdminGetProducts(scan, page, pageSize, "").Ok?
    ensures AdminGetProducts(scan, page, pageSize, "").value.totalCount == |scan.docs|
  {
    ScanListAll(scan, (p: Product) => Keep(p, ""), page, pageSize);
  }

  /** With a non-empty search every listed product's name starts with it. */
  lemma AdminGetProductsPrefix(scan: Scan<Product>, page: int, pageSize: int, search: string)
    requires AdminGetProducts(scan, page, pageSize, search).Ok?
    ensures forall p :: p in AdminGetProducts(scan, page, pageSize, search).value.items ==>
      Text.IsPrefix(search, p.name)
  {
    var items := AdminGetProducts(scan, page, pageSize, search).value.items;
    forall p | p in items
      ensures Text.IsPrefix(search, p.name)
    {
      if search != "" {
        RangeImpliesPrefix(p.name, search);
      }
    }
  }

  /** `AdminGetProduct` / `GetProduct`: a failed read is returned; a decoding
      error is ignored. */
  function GetProduct(read: Result<Snapshot<Product>>): (r: Result<Product>)
    ensures r.Ok? <==> read.Ok?
    ensures r.Ok? ==> r.value == read.value.data
    ensures read.Err? ==> r.error == read.error
  {
    ReadLenient(read)
  }

  /** `AdminUpdateProduct`: the payload is written exactly as given, with its
      own id, while the reply carries the path id. */
  function AdminUpdateProduct(id: string, p: Product, fault: Option<Error>): (r: Saved<Product>)
    ensures r.write == Set(id, p)
    ensures r.reply.Ok? <==> fault.None?
    ensures r.reply.Ok? ==> r.reply.value.id == id && r.reply.value.(id := p.id) == p
  {
    SetDoc(id, p, p.(id := id), fault)
  }

  /** The stored and the returned record of an update disagree exactly when
      the payload's id differs from the path id. */
  lemma UpdateStoredDiffersFromReply(id: string, p: Product)
    ensures var r := AdminUpdateProduct(id, p, None);
      r.write.doc == r.reply.value <==> p.id == id
  {
  }

  function AdminDeleteProduct(id: string, fault: Option<Error>): (r: Removed<Product>)
    ensures r.write == Delete(id) && r.error == fault
  {
    DeleteDoc(id, fault)
  }

  /** The client list: the same name filter and window as the admin list, with
      no filter on `is_enabled`. */
  function GetProducts(scan: Scan<Product>, page: int, pageSize: int, search: string): (r: Result<Listing<Product>>)
    ensures r == AdminGetProducts(scan, page, pageSize, search)
  {
    ScanList(scan, (p: Product) => Keep(p, search), page, pageSize)
  }

  /** A disabled product is still listed to clients. */
  lemma ClientListShowsDisabled(p: Product)
    requires !p.isEnabled
    ensures GetProducts(Scan([Snapshot(p, None)], None), 1, 10, "") == Ok(Listing([p], 1))
  {
    assert Records([Snapshot(p, None)]) == [p];
  }

  /** Reference definition of `GetProductsIds`: the products whose lookup
      succeeded, in the order of `ids`. */
  function FoundProducts(ids: seq<string>, lookup: string -> Result<Snapshot<Product>>): seq<Product>
    decreases |ids|
  {
    if |ids| == 0 then []
    else
      var last := GetProduct(lookup(ids[|ids| - 1]));
      FoundProducts(ids[..|ids| - 1], lookup) + (if last.Ok? then [last.value] else [])
  }

  /** `GetProductsIds`: looks every id up, skips the failed lookups and never
      fails itself. `lookup` is the store's answer for each id. */
  method GetProductsIds(ids: seq<string>, lookup: string -> Result<Snapshot<Product>>) returns (products: seq<Product>)
    ensures products == FoundProducts(ids, lookup)
    ensures |products| <= |ids|
    ensures forall i :: 0 <= i < |ids| && lookup(ids[i]).Ok? ==> lookup(ids[i]).value.data in products
    ensures forall p :: p in products ==> exists i :: 0 <= i < |ids| && lookup(ids[i]).Ok? && lookup(ids[i]).value.data == p
  {
    products := [];
    var k := 0;
    while k < |ids|
      invariant 0 <= k <= |ids|
      invariant products == FoundProducts(ids[..k], lookup)
      invariant |products| <= k
      invariant forall i :: 0 <= i < k && lookup(ids[i]).Ok? ==> lookup(ids[i]).value.data in products
      invariant forall p :: p in products ==> exists i :: 0 <= i < k && lookup(ids[i]).Ok? && lookup(ids[i]).value.data == p
    {
      var r := GetProduct(lookup(ids[k]));
      assert ids[..k + 1][..k] == ids[..k];
      if r.Ok? {
        products := products + [r.value];
      }
      k := k + 1;
    }
    assert ids[..|ids|] == ids;
  }
}

=== FILE: search.dfy ===
/** The two search policies of the list operations.

    The catalogue resources ask the document store for
    `name >= search && name <= search + "\uf8ff"`, a range meant to approximate
    "name starts with search". Orders instead keep a document when its name or
    its mail contains the search text anywhere. An empty search keeps everything
    under both policies. */
module Search {
  import opened Text

  /** U+F8FF, the last code point of the Basic Multilingual Plane's private-use area. */
  const RangeCap: char := '\U{F8FF}'

  /** The store-side range condition used when `search` is non-empty. */
  predicate InNameRange(name: string, search: string) {
    LessEq(search, name) && LessEq(name, search + [RangeCap])
  }

  /** Keep-predicate of the catalogue lists: no filter for an empty search. */
  predicate NameMatches(name: string, search: string) {
    search == "" || InNameRange(name, search)
  }

  /** Exact description of the range: `name` starts with `search`, and what
      follows the prefix sorts no higher than the one-character string "\uf8ff". */
  lemma {:induction false} InNameRangeIff(name: string, search: string)
    ensures InNameRange(name, search) <==>
      IsPrefix(search, name) && LessEq(name[|search|..], [RangeCap])
  {
    var cap := search + [RangeCap];
    if IsPrefix(search, name) {
      var rest := name[|search|..];
      assert name == search + rest;
      assert search == search + [];
      LessOnCommonPrefix(search, rest, [RangeCap]);
      if rest != [] {
        PrefixIsLess(search, name);
      }
    } else if InNameRange(name, search) {
      NotPrefixOutsideRange(name, search);
      LessIrreflexive(name);
      if Less(name, search) {
        LessIrreflexive(search);
        if search != name {
          LessAsymmetric(name, search);
        }
      } else {
        if name != cap {
          LessAsymmetric(cap, name);
        }
      }
      assert false;
    }
  }

  /** A name that does not start with `search` is below `search` or above the cap. */
  lemma {:induction false} NotPrefixOutsideRange(name: string, search: string)
    requires !IsPrefix(search, name)
    ensures Less(name, search) || Less(search + [RangeCap], name)
    decreases |search|
  {
    assert |search| > 0;
    if |name| == 0 {
    } else if name[0] != search[0] {
      assert (search + [RangeCap])[0] == search[0];
    } else {
      assert !IsPrefix(search[1..], name[1..]);
      NotPrefixOutsideRange(name[1..], search[1..]);
      assert (search + [RangeCap])[1..] == search[1..] + [RangeCap];
    }
  }

  /** Sound: every name the range admits starts with the search text. */
  lemma RangeImpliesPrefix(name: string, search: string)
    requires InNameRange(name, search)
    ensures IsPrefix(search, name)
  {
    InNameRangeIff(name, search);
  }

  /** Names equal to the search text, or continuing with a character below
      U+F8FF, are admitted. */
  lemma RangeAdmitsOrdinaryContinuations(name: string, search: string)
    requires IsPrefix(search, name)
    requires |name| == |search| || name[|search|] < RangeCap
    ensures InNameRange(name, search)
  {
    InNameRangeIff(name, search);
  }

  /** Incomplete: a name that starts with the search text but continues with
      a character above U+F8FF (an emoji, say) is not admitted. */
  lemma RangeMissesHighContinuations(name: string, search: string)
    requires IsPrefix(search, name) && |name| > |search| && name[|search|] > RangeCap
    ensures !InNameRange(name, search)
  {
    InNameRangeIff(name, search);
  }

  lemma RangeExamples()
    ensures InNameRange("Coffee", "Cof")
    ensures !InNameRange("Decaf Coffee", "Cof")
    ensures !InNameRange("Cof\U{1F600}", "Cof")
  {
    RangeAdmitsOrdinaryContinuations("Coffee", "Cof");
    assert !IsPrefix("Cof", "Decaf Coffee");
    RangeMissesHighContinuations("Cof\U{1F600}", "Cof");
  }

  /** Keep-predicate of the order lists: substring of name or of mail. */
  predicate OrderTextMatches(name: string, mail: string, search: string) {
    search == "" || Contains(name, search) || Contains(mail, search)
  }

  /** The order policy is wider than the catalogue one: every name the range
      admits also contains the search text. */
  lemma RangeMatchIsSubstringMatch(name: string, mail: string, search: string)
    requires NameMatches(name, search)
    ensures OrderTextMatches(name, mail, search)
  {
    if search != "" {
      RangeImpliesPrefix(name, search);
      assert OccursAt(name, search, 0);
    }
  }
}

=== FILE: server.dfy ===
/** The parts of `main.go` with logic in them: the CORS middleware wrapped
    around every route, and the configuration read from the environment. */
module Server {

  type Headers = map<string, string>

  const AllowOrigin: string := "Access-Control-Allow-Origin"
  const AllowCredentials: string := "Access-Control-Allow-Credentials"
  const AllowMethods: string := "Access-Control-Allow-Methods"
  const AllowHeaders: string := "Access-Control-Allow-Headers"
  const MethodsValue: string := "POST, GET, OPTIONS, PUT, DELETE"
  const HeadersValue: string := "Accept, Content-Type, Content-Length, Accept-Encoding, X-CSRF-Token, Authorization, X-Auth-Token"

  /** The origins the server is started with. */
  const DeployedOrigins: seq<string> := ["http://localhost:5173", "https://suto-e-shop.netlify.app"]

  /** The declarative reading of the origin check. */
  predicate OriginAllowed(allowed: seq<string>, origin: string) {
    "*" in allowed || origin in allowed
  }

  /** The origin loop of `CORSMiddleware`: stops at the first entry that is
      "*" or equal to the request's origin. */
  method IsAllowed(allowed: seq<string>, origin: string) returns (isAllowed: bool)
    ensures isAllowed <==> OriginAllowed(allowed, origin)
  {
    isAllowed := false;
    var i := 0;
    while i < |allowed|
      invariant 0 <= i <= |allowed|
      invariant !isAllowed
      invariant forall j :: 0 <= j < i ==> allowed[j] != "*" && allowed[j] != origin
    {
      if allowed[i] == "*" || origin == allowed[i] {
        isAllowed := true;
        break;
      }
      i := i + 1;
    }
  }

  /** The response headers after the middleware: the two credentials headers
      only for an allowed origin, the methods and headers lists always. */
  function CorsHeaders(isAllowed: bool, origin: string, h: Headers): (out: Headers)
    ensures AllowMethods in out && out[AllowMethods] == MethodsValue
    ensures AllowHeaders in out && out[AllowHeaders] == HeadersValue
    ensures isAllowed ==> AllowOrigin in out && out[AllowOrigin] == origin
    ensures isAllowed ==> AllowCredentials in out && out[AllowCredentials] == "true"
    ensures !isAllowed ==> (AllowOrigin in out <==> AllowOrigin in h) && (AllowOrigin in h ==> out[AllowOrigin] == h[AllowOrigin])
    ensures !isAllowed ==> (AllowCredentials in out <==> AllowCredentials in h) && (AllowCredentials in h ==> out[AllowCredentials] == h[AllowCredentials])
    ensures forall k :: k in h && k !in {AllowOrigin, AllowCredentials, AllowMethods, AllowHeaders} ==> k in out && out[k] == h[k]
    ensures out.Keys == h.Keys + {AllowMethods, AllowHeaders} + (if isAllowed then {AllowOrigin, AllowCredentials} else {})
  {
    var withCreds := if isAllowed then h[AllowOrigin := origin][AllowCredentials := "true"] else h;
    withCreds[AllowMethods := MethodsValue][AllowHeaders := HeadersValue]
  }

  /** `CORSMiddleware` for one request: the headers it leaves on the response
      and whether the next handler runs, which it always does. */
  method CORSMiddleware(allowed: seq<string>, origin: string, h: Headers) returns (out: Headers, forwarded: bool)
    ensures forwarded
    ensures OriginAllowed(allowed, origin) ==> AllowOrigin in out && out[AllowOrigin] == origin
    ensures OriginAllowed(allowed, origin) ==> AllowCredentials in out && out[AllowCredentials] == "true"
    ensures !OriginAllowed(allowed, origin) ==> AllowOrigin !in h ==> AllowOrigin !in out
    ensures !OriginAllowed(allowed, origin) ==> AllowCredentials !in h ==> AllowCredentials !in out
    ensures AllowMethods in out && out[AllowMethods] == MethodsValue
    ensures AllowHeaders in out && out[AllowHeaders] == HeadersValue
  {
    var ok := IsAllowed(allowed, origin);
    out := CorsHeaders(ok, origin, h);
    forwarded := true;
  }

  /** With the deployed list the Allow-Origin value is one of the two
      configured origins, echoed, never the wildcard. */
  lemma DeployedOriginsEchoOnly(origin: string)
    ensures OriginAllowed(DeployedOrigins, origin) <==> origin in DeployedOrigins
    ensures OriginAllowed(DeployedOrigins, origin) ==> CorsHeaders(true, origin, map[])[AllowOrigin] != "*"
  {
    assert "*" !in DeployedOrigins;
  }

  // ---------------------------------------------------------------- config

  /** `os.Getenv`: the empty string for an unset variable. */
  function Getenv(env: map<string, string>, key: string): string {
    if key in env then env[key] else ""
  }

  datatype Config = Config(projectID: string, databaseID: string, storageBucket: string, port: string)

  /** Start-up ends either with a fatal log message or with a configuration. */
  datatype Startup = Fatal(message: string) | Ready(config: Config)

  const ProjectRequired: string := "GOOGLE_CLOUD_PROJECT environment variable must be set."
  const DatabaseRequired: string := "FIRESTORE_DATABASE_ID environment variable must be set."
  const DefaultPort: string := "8080"
  const BucketSuffix: string := ".appspot.com"

  /** The environment handling of `main`: the project and the database must
      be set, in that order; the bucket defaults to `<project>.appspot.com`
      and the port to 8080. */
  function LoadConfig(env: map<string, string>): (r: Startup)
    ensures Getenv(env, "GOOGLE_CLOUD_PROJECT") == "" ==> r == Fatal(ProjectRequired)
    ensures Getenv(env, "GOOGLE_CLOUD_PROJECT") != "" && Getenv(env, "FIRESTORE_DATABASE_ID") == "" ==> r == Fatal(DatabaseRequired)
    ensures r.Ready? <==> Getenv(env, "GOOGLE_CLOUD_PROJECT") != "" && Getenv(env, "FIRESTORE_DATABASE_ID") != ""
    ensures r.Ready? ==> r.config.projectID == env["GOOGLE_CLOUD_PROJECT"] && r.config.databaseID == env["FIRESTORE_DATABASE_ID"]
    ensures r.Ready? ==> r.config.storageBucket != "" && r.config.port != ""
    ensures r.Ready? && Getenv(env, "STORAGE_BUCKET") != "" ==> r.config.storageBucket == env["STORAGE_BUCKET"]
    ensures r.Ready? && Getenv(env, "STORAGE_BUCKET") == "" ==> r.config.storageBucket == r.config.projectID + BucketSuffix
    ensures r.Ready? && Getenv(env, "PORT") != "" ==> r.config.port == env["PORT"]
    ensures r.Ready? && Getenv(env, "PORT") == "" ==> r.config.port == DefaultPort
  {
    var projectID := Getenv(env, "GOOGLE_CLOUD_PROJECT");
    if projectID == "" then Fatal(ProjectRequired)
    else
      var databaseID := Getenv(env, "FIRESTORE_DATABASE_ID");
      if databaseID == "" then Fatal(DatabaseRequired)
      else
        var bucket := Getenv(env, "STORAGE_BUCKET");
        var bucket' := if bucket == "" then projectID + BucketSuffix else bucket;
        var port := Getenv(env, "PORT");
        var port' := if port == "" then DefaultPort else port;
        Ready(Config(projectID, databaseID, bucket', port'))
  }

  /** An unset variable and one set to the empty string are treated alike. */
  lemma EmptyIsUnset(env: map<string, string>, key: string)
    ensures LoadConfig(env[key := ""]) == LoadConfig(env - {key})
  {
  }
}

=== FILE: store.dfy ===
/** The document store as the services see it, and the parts of the list
    and read code that every Firestore-backed service repeats.

    The store itself is not modelled: a read is given as the result the store
    returned, a query as the documents it yielded (in its iteration order) and
    the failure that ended it, if any, and a write as the command the service
    issues together with the failure the store reported, if any. Nothing is
    assumed about what the store does with a write. */
module Store {
  import opened Wrappers
  import opened Pagination

  /** What `doc.DataTo(&record)` produced: the record it filled in and the
      decoding error it returned, if any. */
  datatype Snapshot<T> = Snapshot(data: T, decodeError: Option<Error>)

  /** A query iteration: the documents yielded, then either the end of the
      iteration (`fault == None`) or the failure `iter.Next` returned. */
  datatype Scan<T> = Scan(docs: seq<Snapshot<T>>, fault: Option<Error>)

  /** A write issued to the store. */
  datatype Write<T> = Set(id: string, doc: T) | Delete(id: string)

  /** A write operation: the command issued and the reply given to the caller. */
  datatype Saved<T> = Saved(write: Write<T>, reply: Result<T>)

  /** A delete operation: the command issued and the error returned, if any. */
  datatype Removed<T> = Removed(write: Write<T>, error: Option<Error>)

  /** The records of the yielded documents, decoding errors ignored. */
  function Records<T>(docs: seq<Snapshot<T>>): (r: seq<T>)
    ensures |r| == |docs|
    ensures forall i :: 0 <= i < |r| ==> r[i] == docs[i].data
  {
    seq(|docs|, i requires 0 <= i < |docs| => docs[i].data)
  }

  /** The elements of `s` that `keep` accepts, in their original order. */
  function Filter<T>(s: seq<T>, keep: T -> bool): (r: seq<T>)
    ensures |r| <= |s|
    ensures forall i :: 0 <= i < |r| ==> r[i] in s && keep(r[i])
    ensures forall i :: 0 <= i < |s| && keep(s[i]) ==> s[i] in r
    decreases |s|
  {
    if |s| == 0 then []
    else if keep(s[0]) then [s[0]] + Filter(s[1..], keep)
    else Filter(s[1..], keep)
  }

  /** The yielded documents whose decoded record `keep` accepts, in order. */
  function Kept<T>(docs: seq<Snapshot<T>>, keep: T -> bool): (r: seq<Snapshot<T>>)
    ensures forall i :: 0 <= i < |r| ==> r[i] in docs && keep(r[i].data)
    ensures forall i :: 0 <= i < |docs| && keep(docs[i].data) ==> docs[i] in r
  {
    Filter(docs, (d: Snapshot<T>) => keep(d.data))
  }

  /** Filtering documents on their decoded record, then decoding, is filtering
      the decoded records. */
  lemma {:induction false} RecordsOfFilter<T>(docs: seq<Snapshot<T>>, keep: T -> bool)
    ensures Records(Kept(docs, keep)) == Filter(Records(docs), keep)
    decreases |docs|
  {
    if |docs| == 0 {
      assert Records(docs) == [];
    } else {
      RecordsOfFilter(docs[1..], keep);
      assert Records(docs)[1..] == Records(docs[1..]);
      if keep(docs[0].data) {
        assert Records([docs[0]] + Kept(docs[1..], keep)) == [docs[0].data] + Records(Kept(docs[1..], keep));
      }
    }
  }

  /** A filter that accepts everything changes nothing. */
  lemma {:induction false} FilterKeepsAll<T>(s: seq<T>, keep: T -> bool)
    requires forall i :: 0 <= i < |s| ==> keep(s[i])
    ensures Filter(s, keep) == s
    decreases |s|
  {
    if |s| > 0 {
      FilterKeepsAll(s[1..], keep);
      assert s == [s[0]] + s[1..];
    }
  }

  /** Filtering distributes over concatenation, so it preserves order. */
  lemma {:induction false} FilterAppend<T>(a: seq<T>, b: seq<T>, keep: T -> bool)
    ensures Filter(a + b, keep) == Filter(a, keep) + Filter(b, keep)
    decreases |a|
  {
    if |a| == 0 {
      assert a + b == b;
    } else {
      assert (a + b)[1..] == a[1..] + b;
      FilterAppend(a[1..], b, keep);
    }
  }

  /** The list operations: a failed iteration is returned as is; otherwise the
      kept records are counted and windowed. Every listed item is a kept
      record, and the reported count is the number of kept records. */
  function ScanList<T>(scan: Scan<T>, keep: T -> bool, page: int, pageSize: int): (r: Result<Listing<T>>)
    ensures scan.fault.Some? ==> r == Err(scan.fault.value)
    ensures scan.fault.None? ==> r == ListWindow(Filter(Records(scan.docs), keep), page, pageSize)
    ensures r.Ok? ==> forall i :: 0 <= i < |r.value.items| ==> keep(r.value.items[i])
    ensures r.Ok? ==> forall i :: 0 <= i < |r.value.items| ==> r.value.items[i] in Records(scan.docs)
    ensures r.Ok? ==> r.value.totalCount == |Filter(Records(scan.docs), keep)|
    ensures scan.fault.None? && page >= 1 && pageSize >= 0 ==> r.Ok?
  {
    match scan.fault
    case Some(e) => Err(e)
    case None =>
      var kept := Filter(Records(scan.docs), keep);
      var r := ListWindow(kept, page, pageSize);
      assert r.Ok? ==> forall i :: 0 <= i < |r.value.items| ==> r.value.items[i] == kept[Start(page, pageSize) + i];
      assert page >= 1 && pageSize >= 0 ==> Start(page, pageSize) >= 0 by {
        if page >= 1 && pageSize >= 0 {
          MulMonotone(0, page - 1, pageSize);
        }
      }
      r
  }

  /** With no filter, the count is the number of documents the scan yielded. */
  lemma ScanListAll<T>(scan: Scan<T>, keep: T -> bool, page: int, pageSize: int)
    requires forall x :: keep(x)
    requires ScanList(scan, keep, page, pageSize).Ok?
    ensures ScanList(scan, keep, page, pageSize).value.totalCount == |scan.docs|
  {
    FilterKeepsAll(Records(scan.docs), keep);
  }

  /** The index of the first document that failed to decode, if any. */
  function FirstDecodeError<T>(docs: seq<Snapshot<T>>): (r: Option<nat>)
    ensures r.Some? ==> r.value < |docs| && docs[r.value].decodeError.Some?
    ensures r.Some? ==> forall i :: 0 <= i < r.value ==> docs[i].decodeError.None?
    ensures r.None? ==> forall i :: 0 <= i < |docs| ==> docs[i].decodeError.None?
    decreases |docs|
  {
    if |docs| == 0 then None
    else if docs[0].decodeError.Some? then Some(0)
    else match FirstDecodeError(docs[1..])
      case Some(k) => Some(k + 1)
      case None => None
  }

  /** An unpaginated query whose decoding errors are ignored: the kept
      records, or the failure that ended the iteration. */
  function ScanAll<T>(scan: Scan<T>, keep: T -> bool): (r: Result<seq<T>>)
    ensures scan.fault.Some? <==> r.Err?
    ensures r.Err? ==> r.error == scan.fault.value
    ensures r.Ok? ==> r.value == Filter(Records(scan.docs), keep)
  {
    match scan.fault
    case Some(e) => Err(e)
    case None => Ok(Filter(Records(scan.docs), keep))
  }

  /** An unpaginated query that stops at the first yielded document that
      fails to decode; the iteration's own failure can only come after every
      yielded document. */
  function ScanAllChecked<T>(scan: Scan<T>, keep: T -> bool): (r: Result<seq<T>>)
    ensures r.Ok? <==> scan.fault.None? && FirstDecodeError(Kept(scan.docs, keep)).None?
    ensures r.Ok? ==> r.value == Records(Kept(scan.docs, keep))
    ensures var y := Kept(scan.docs, keep);
      FirstDecodeError(y).Some? ==> r == Err(y[FirstDecodeError(y).value].decodeError.value)
    ensures FirstDecodeError(Kept(scan.docs, keep)).None? && scan.fault.Some? ==> r == Err(scan.fault.value)
  {
    var yielded := Kept(scan.docs, keep);
    match FirstDecodeError(yielded)
    case Some(k) => Err(yielded[k].decodeError.value)
    case None =>
      match scan.fault
      case Some(e) => Err(e)
      case None => Ok(Records(yielded))
  }

  /** A read that ignores `DataTo`'s error, as the product, coupon and order
      services do: whatever was decoded is returned. */
  function ReadLenient<T>(read: Result<Snapshot<T>>): (r: Result<T>)
    ensures read.Err? ==> r == Err(read.error)
    ensures read.Ok? ==> r == Ok(read.value.data)
  {
    match read
    case Err(e) => Err(e)
    case Ok(snap) => Ok(snap.data)
  }

  /** A read that surfaces `DataTo`'s error, as the category, advertise and
      banner services do. */
  function ReadChecked<T>(read: Result<Snapshot<T>>): (r: Result<T>)
    ensures r.Ok? <==> read.Ok? && read.value.decodeError.None?
    ensures r.Ok? ==> r.value == read.value.data
    ensures read.Err? ==> r == Err(read.error)
    ensures read.Ok? && read.value.decodeError.Some? ==> r == Err(read.value.decodeError.value)
  {
    match read
    case Err(e) => Err(e)
    case Ok(snap) =>
      match snap.decodeError
      case Some(e) => Err(e)
      case None => Ok(snap.data)
  }

  /** Both readers agree on every document that decodes cleanly. */
  lemma ReadersAgreeOnCleanDocuments<T>(read: Result<Snapshot<T>>)
    requires read.Err? || read.value.decodeError.None?
    ensures ReadChecked(read) == ReadLenient(read)
  {
  }

  /** `Doc(id).Delete`: the store's error, if any, is returned unchanged. */
  function DeleteDoc<T>(id: string, fault: Option<Error>): (r: Removed<T>)
    ensures r.write == Delete(id) && r.error == fault
  {
    Removed(Delete(id), fault)
  }

  /** A `Set(id, doc)` whose reply is `reply` when the store accepts it. */
  function SetDoc<T>(id: string, doc: T, reply: T, fault: Option<Error>): (r: Saved<T>)
    ensures r.write == Set(id, doc)
    ensures r.reply.Ok? <==> fault.None?
    ensures r.reply.Ok? ==> r.reply.value == reply
    ensures fault.Some? ==> r.reply == Err(fault.value)
  {
    match fault
    case Some(e) => Saved(Set(id, doc), Err(e))
    case None => Saved(Set(id, doc), Ok(reply))
  }
}

=== FILE: text.dfy ===
/** String helpers the services rely on: Go's string ordering, prefix and
    substring tests, and `strings.TrimPrefix`.

    Go compares strings byte-wise on their UTF-8 encoding, and the document
    store orders strings the same way; for well-formed text that order agrees
    with code-point order, which is what `Less` compares on `char`s. */
module Text {

  predicate IsPrefix(p: string, s: string) {
    |p| <= |s| && s[..|p|] == p
  }

  /** Go's `a < b` on strings: lexicographic, a proper prefix sorts first. */
  predicate Less(a: string, b: string)
    decreases |a|
  {
    if |a| == 0 then |b| > 0
    else if |b| == 0 then false
    else if a[0] != b[0] then a[0] < b[0]
    else Less(a[1..], b[1..])
  }

  /** Go's `a <= b` on strings. */
  predicate LessEq(a: string, b: string) {
    a == b || Less(a, b)
  }

  lemma {:induction false} LessIrreflexive(a: string)
    ensures !Less(a, a)
  {
    if |a| > 0 {
      LessIrreflexive(a[1..]);
    }
  }

  lemma {:induction false} LessTransitive(a: string, b: string, c: string)
    requires Less(a, b) && Less(b, c)
    ensures Less(a, c)
    decreases |a|
  {
    if |a| > 0 && a[0] == b[0] && b[0] == c[0] {
      LessTransitive(a[1..], b[1..], c[1..]);
    }
  }

  lemma {:induction false} LessTotal(a: string, b: string)
    ensures a == b || Less(a, b) || Less(b, a)
    decreases |a|
  {
    if |a| > 0 && |b| > 0 && a[0] == b[0] {
      LessTotal(a[1..], b[1..]);
      if a[1..] == b[1..] {
        assert a == [a[0]] + a[1..] && b == [b[0]] + b[1..];
      }
    }
  }

  lemma LessAsymmetric(a: string, b: string)
    requires Less(a, b)
    ensures !Less(b, a)
  {
    if Less(b, a) {
      LessTransitive(a, b, a);
      LessIrreflexive(a);
    }
  }

  /** A proper extension always sorts after the string it extends. */
  lemma {:induction false} PrefixIsLess(p: string, s: string)
    requires IsPrefix(p, s) && |p| < |s|
    ensures Less(p, s)
    decreases |p|
  {
    if |p| > 0 {
      assert s[1..][..|p| - 1] == s[..|p|][1..];
      PrefixIsLess(p[1..], s[1..]);
    }
  }

  /** Comparison is decided by the first position at which the strings differ. */
  lemma {:induction false} LessOnCommonPrefix(p: string, a: string, b: string)
    ensures Less(p + a, p + b) <==> Less(a, b)
    decreases |p|
  {
    if |p| > 0 {
      assert (p + a)[1..] == p[1..] + a;
      assert (p + b)[1..] == p[1..] + b;
      LessOnCommonPrefix(p[1..], a, b);
    } else {
      assert p + a == a && p + b == b;
    }
  }

  /** `strings.TrimPrefix`: removes one leading copy of `prefix` when present. */
  function TrimPrefix(s: string, prefix: string): (r: string)
    ensures IsPrefix(prefix, s) ==> prefix + r == s
    ensures !IsPrefix(prefix, s) ==> r == s
  {
    if IsPrefix(prefix, s) then
      assert s == s[..|prefix|] + s[|prefix|..];
      s[|prefix|..]
    else s
  }

  /** True iff `sub` occurs in `s` starting at position `i`. */
  predicate OccursAt(s: string, sub: string, i: nat) {
    i + |sub| <= |s| && s[i..i + |sub|] == sub
  }

  /** `strings.Contains`: `sub` occurs somewhere in `s` (the empty string
      occurs everywhere). */
  predicate Contains(s: string, sub: string)
    ensures Contains(s, sub) <==> exists i: nat :: OccursAt(s, sub, i)
    decreases |s|
  {
    if IsPrefix(sub, s) then
      assert OccursAt(s, sub, 0);
      true
    else if |s| == 0 then
      false
    else
      ContainsShift(s, sub);
      Contains(s[1..], sub)
  }

  /** Occurrences in `s[1..]` are the occurrences in `s` after position 0. */
  lemma ContainsShift(s: string, sub: string)
    requires |s| > 0 && !IsPrefix(sub, s)
    ensures (exists i: nat :: OccursAt(s, sub, i)) <==> (exists j: nat :: OccursAt(s[1..], sub, j))
  {
    if i: nat :| OccursAt(s, sub, i) {
      assert i != 0;
      assert s[1..][i - 1..i - 1 + |sub|] == s[i..i + |sub|];
      assert OccursAt(s[1..], sub, i - 1);
    }
    if j: nat :| OccursAt(s[1..], sub, j) {
      assert s[j + 1..j + 1 + |sub|] == s[1..][j..j + |sub|];
      assert OccursAt(s, sub, j + 1);
    }
  }
}

=== FILE: upload.dfy ===
/** Image upload: the storage service (`upload/storage.go`) that names and
    writes the object and builds its public URL, and the handler
    (`upload/handler.go`) that validates the multipart form first. */
module Upload {
  import opened Wrappers
  import opened Http

  datatype UploadResult = UploadResult(id: string, url: string, uploadType: string)

  /** The content types the handler accepts. */
  const ValidImageTypes: set<string> := {"image/jpeg", "image/png", "image/gif", "image/webp", "image/svg+xml"}

  const FallbackExtension: string := ".jpg"
  const PublicHost: string := "https://storage.googleapis.com/"
  const ResizedSuffix: string := "_200x200"

  /** `isValidImageType`: membership in the handler's allow-list. */
  function IsValidImageType(contentType: string): (ok: bool)
    ensures ok <==> contentType in ValidImageTypes
  {
    match contentType
    case "image/jpeg" => true
    case "image/png" => true
    case "image/gif" => true
    case "image/webp" => true
    case "image/svg+xml" => true
    case _ => false
  }

  /** The explicit cases of `getFileExtension`'s switch. */
  function ExplicitExtension(contentType: string): Option<string> {
    match contentType
    case "image/jpeg" => Some(".jpg")
    case "image/png" => Some(".png")
    case "image/gif" => Some(".gif")
    case "image/webp" => Some(".webp")
    case "image/svg+xml" => Some(".svg")
    case _ => None
  }

  /** `getFileExtension`: the explicit case, or ".jpg" for any other type. */
  function FileExtension(contentType: string): (ext: string)
    ensures ext in {".jpg", ".png", ".gif", ".webp", ".svg"}
    ensures ExplicitExtension(contentType).None? ==> ext == FallbackExtension
    ensures ExplicitExtension(contentType).Some? ==> ext == ExplicitExtension(contentType).value
  {
    match ExplicitExtension(contentType)
    case Some(ext) => ext
    case None => FallbackExtension
  }

  /** The content type each extension stands for. */
  function ContentTypeOf(ext: string): string {
    match ext
    case ".jpg" => "image/jpeg"
    case ".png" => "image/png"
    case ".gif" => "image/gif"
    case ".webp" => "image/webp"
    case ".svg" => "image/svg+xml"
    case _ => ""
  }

  /** The two allow-lists agree: a type is accepted by the handler exactly
      when the extension switch has an explicit case for it, and on those
      types the extension determines the type. */
  lemma AcceptedTypesHaveExplicitExtension(contentType: string)
    ensures IsValidImageType(contentType) <==> ExplicitExtension(contentType).Some?
    ensures IsValidImageType(contentType) ==> ContentTypeOf(FileExtension(contentType)) == contentType
  {
  }

  /** Every other type, including the empty one, falls back to ".jpg". */
  lemma FallbackExamples()
    ensures FileExtension("image/bmp") == ".jpg"
    ensures FileExtension("") == ".jpg"
    ensures FileExtension("image/svg+xml") == ".svg"
  {
  }

  /** The object the bytes are written to: `type/id.ext`. */
  function ObjectPath(uploadType: string, id: string, ext: string): string {
    uploadType + "/" + id + ext
  }

  /** The public URL of an object path in a bucket. */
  function PublicUrl(bucket: string, path: string): string {
    PublicHost + bucket + "/" + path
  }

  /** The part of an object path before its first '/'. */
  function Folder(path: string): (f: string)
    ensures |f| <= |path|
    ensures '/' !in f
    decreases |path|
  {
    if |path| == 0 || path[0] == '/' then "" else [path[0]] + Folder(path[1..])
  }

  /** The folder of an object path is the upload type, when that has no '/'. */
  lemma {:induction false} FolderOfObjectPath(uploadType: string, rest: string)
    requires '/' !in uploadType
    ensures Folder(uploadType + "/" + rest) == uploadType
    decreases |uploadType|
  {
    if |uploadType| == 0 {
      assert (uploadType + "/" + rest)[0] == '/';
    } else {
      assert (uploadType + "/" + rest)[1..] == uploadType[1..] + "/" + rest;
      FolderOfObjectPath(uploadType[1..], rest);
      assert uploadType == [uploadType[0]] + uploadType[1..];
    }
  }

  /** What `UploadImage` does: the object it writes and what it returns. */
  datatype Uploaded = Uploaded(objectPath: string, contentType: string, data: seq<bv8>, result: Result<UploadResult>)

  /** `UploadImage`. `id` is the fresh UUID; `writeFault`, `closeFault` and
      `aclFault` are the storage client's answers to writing the bytes,
      closing the writer and making the object public. Each failure stops the
      upload and is wrapped with its step's message; the returned URL names
      the resized copy `<id>_200x200<ext>`, not the written object. */
  function UploadImage(data: seq<bv8>, contentType: string, uploadType: string, bucket: string, id: string,
                       writeFault: Option<Error>, closeFault: Option<Error>, aclFault: Option<Error>): (r: Uploaded)
    ensures r.objectPath == ObjectPath(uploadType, id, FileExtension(contentType))
    ensures r.contentType == contentType && r.data == data
    ensures r.result.Ok? <==> writeFault.None? && closeFault.None? && aclFault.None?
    ensures writeFault.Some? ==> r.result == Err(Wrapped("failed to write file data", writeFault.value))
    ensures writeFault.None? && closeFault.Some? ==> r.result == Err(Wrapped("failed to close writer", closeFault.value))
    ensures writeFault.None? && closeFault.None? && aclFault.Some? ==> r.result == Err(Wrapped("failed to set ACL", aclFault.value))
    ensures r.result.Ok? ==> r.result.value.id == id && r.result.value.uploadType == uploadType
    ensures r.result.Ok? ==> r.result.value.url == PublicUrl(bucket, ObjectPath(uploadType, id + ResizedSuffix, FileExtension(contentType)))
  {
    var ext := FileExtension(contentType);
    var path := ObjectPath(uploadType, id, ext);
    var result :=
      if writeFault.Some? then Err(Wrapped("failed to write file data", writeFault.value))
      else if closeFault.Some? then Err(Wrapped("failed to close writer", closeFault.value))
      else if aclFault.Some? then Err(Wrapped("failed to set ACL", aclFault.value))
      else
        var resized := uploadType + "/" + id + ResizedSuffix + ext;
        Ok(UploadResult(id, PublicHost + bucket + "/" + resized, uploadType));
    Uploaded(path, contentType, data, result)
  }

  /** The returned URL is never the public URL of the object written: it is
      longer by the resize suffix. Both lie in the upload type's folder. */
  lemma UrlIsNotTheWrittenObject(data: seq<bv8>, contentType: string, uploadType: string, bucket: string, id: string)
    requires '/' !in uploadType
    ensures var r := UploadImage(data, contentType, uploadType, bucket, id, None, None, None);
      && |r.result.value.url| == |PublicUrl(bucket, r.objectPath)| + |ResizedSuffix|
      && r.result.value.url != PublicUrl(bucket, r.objectPath)
      && Folder(r.objectPath) == uploadType
  {
    var ext := FileExtension(contentType);
    FolderOfObjectPath(uploadType, id + ext);
    assert ObjectPath(uploadType, id, ext) == uploadType + "/" + (id + ext);
  }

  // ----------------------------------------------------------------- handler

  /** The file part of the form: its `Content-Type` header and its bytes, or
      `None` when reading them failed. */
  datatype FilePart = FilePart(contentType: string, content: Option<seq<bv8>>)

  /** A parsed multipart form: the `type` field ("" when absent) and the
      `file` part, if present. */
  datatype Form = Form(uploadType: string, file: Option<FilePart>)

  const ParseFailed: string := "Failed to parse form: file too large or invalid format"
  const MissingType: string := "Missing required field: type"
  const MissingFile: string := "Missing required field: file"
  const InvalidType: string := "Invalid file type. Allowed types: jpeg, png, gif, webp, svg"
  const ReadFailed: string := "Failed to read file"

  /** True when every check before the service call passes. */
  predicate Accepted(form: Option<Form>) {
    && form.Some?
    && form.value.uploadType != ""
    && form.value.file.Some?
    && form.value.file.value.contentType in ValidImageTypes
    && form.value.file.value.content.Some?
  }

  /** `UploadImage` (handler): form parse, type present, file present, content
      type allowed (each 400), bytes read (500); only then the service, whose
      error is a 500 and whose result is a 201. `form` is `None` when the
      multipart form did not parse. */
  function HandleUpload(form: Option<Form>, service: (seq<bv8>, string, string) -> Result<UploadResult>)
    : (r: Handled<(seq<bv8>, string, string), UploadResult>)
    ensures form.None? ==> r == Handled(None, Fail(StatusBadRequest, ParseFailed))
    ensures form.Some? && form.value.uploadType == "" ==> r == Handled(None, Fail(StatusBadRequest, MissingType))
    ensures form.Some? && form.value.uploadType != "" && form.value.file.None? ==>
      r == Handled(None, Fail(StatusBadRequest, MissingFile))
    ensures (form.Some? && form.value.uploadType != "" && form.value.file.Some? &&
             form.value.file.value.contentType !in ValidImageTypes) ==>
      r == Handled(None, Fail(StatusBadRequest, InvalidType))
    ensures r.call.Some? <==> Accepted(form)
    ensures !Accepted(form) && r.reply.status != StatusBadRequest ==> r.reply == Fail(StatusInternalServerError, ReadFailed)
    ensures r.call.Some? ==>
      r.call.value == (form.value.file.value.content.value, form.value.file.value.contentType, form.value.uploadType)
    ensures r.call.Some? ==>
      match service(r.call.value.0, r.call.value.1, r.call.value.2)
      case Err(e) => r.reply == Reply(StatusInternalServerError, Failure(ErrorText(e)))
      case Ok(u) => r.reply == Reply(StatusCreated, Success(u))
  {
    match form
    case None => Handled(None, Fail(StatusBadRequest, ParseFailed))
    case Some(f) =>
      if f.uploadType == "" then Handled(None, Fail(StatusBadRequest, MissingType))
      else
        match f.file
        case None => Handled(None, Fail(StatusBadRequest, MissingFile))
        case Some(part) =>
          if !IsValidImageType(part.contentType) then Handled(None, Fail(StatusBadRequest, InvalidType))
          else
            match part.content
            case None => Handled(None, Fail(StatusInternalServerError, ReadFailed))
            case Some(bytes) =>
              var args := (bytes, part.contentType, f.uploadType);
              match service(bytes, part.contentType, f.uploadType)
              case Err(e) => Handled(Some(args), Reply(StatusInternalServerError, Failure(ErrorText(e))))
              case Ok(u) => Handled(Some(args), Reply(StatusCreated, Success(u)))
  }

  /** Whatever the handler passes to the storage service is named with an
      explicit extension case, never the fallback, and lands in the folder
      of the upload type. */
  lemma AcceptedUploadsUseExplicitExtension(form: Option<Form>, service: (seq<bv8>, string, string) -> Result<UploadResult>,
                                            bucket: string, id: string)
    requires HandleUpload(form, service).call.Some?
    ensures var (data, contentType, uploadType) := HandleUpload(form, service).call.value;
      && ExplicitExtension(contentType).Some?
      && UploadImage(data, contentType, uploadType, bucket, id, None, None, None).objectPath
         == uploadType + "/" + id + ExplicitExtension(contentType).value
  {
    var (_, contentType, _) := HandleUpload(form, service).call.value;
    AcceptedTypesHaveExplicitExtension(contentType);
  }
}

=== FILE: wrappers.dfy ===
/** Failure-carrying result types shared by every module of the model.
    A Go function returning `(T, error)` becomes a `Result<T>`; the zero value
    Go returns beside a non-nil error is never read by a caller and is dropped. */
module Wrappers {

  datatype Option<+T> = None | Some(value: T) {
    function GetOr(default: T): T {
      match this
      case Some(v) => v
      case None => default
    }
  }

  /** The error values the service layer can produce. Store, storage and
      identity-service failures are opaque: they carry the message only. */
  datatype Error =
    | NotFound                      // a document id or map key that is absent
    | StoreFailure(message: string) // any failure reported by the document store
    | DecodeFailure(message: string)// a stored document that does not decode into the record
    | SlicePanic                    // Go's run-time panic on out-of-range slice bounds
    | Wrapped(context: string, cause: Error) // `fmt.Errorf("<context>: %w", cause)`

  datatype Result<+T> = Ok(value: T) | Err(error: Error) {
    predicate IsFailure() {
      Err?
    }

    function PropagateFailure<U>(): Result<U>
      requires Err?
    {
      Err(error)
    }

    function Extract(): T
      requires Ok?
    {
      value
    }
  }
}
